=== FILE: README.md ===
# КиберЛинза (CyberLens) — a Dafny model of the extension's core

КиберЛинза is a browser extension that sends a URL or a file hash to the Kaspersky OpenTIP
threat-intelligence service and shows a traffic-light verdict (safe / dangerous / unknown).
This project models the extension's decision logic as pure Dafny functions and proves what
they promise:

- **Validation and normalisation** (`utils.dfy`, module `Utils`): `normalizeUrl`,
  `isProbablyUrl`, `isProbablyHash`. Also `classifyOpentip`, which finds the zone in a
  response and maps it to a verdict, a Russian label and a canonical zone.
- **The lookup client** (`api.dfy`, module `Api`): `opentipFetch` builds the request. It
  checks the key, reads the body, and chooses the error message. `checkUrl` and `checkHash`
  build on it. The module also gives the object form of a check result and its decoder.
- **Storage** (`storage.dfy`, module `Storage`): the settings with their defaults, the
  settings merge, clearing the key, and the last-result slot. All of these work over a store
  that maps keys to stored values.
- **The background script** (`background.dfy`, module `Background`): the runtime-message
  handler, the context-menu handler, `saveAndNotify` and `formatVerdictMessage`. Each handler
  maps an event, a store, the outside services and the current time to four things: the
  reply, the new store, the lookup request issued (if any) and the notification raised (if
  any).
- **The file-check page** (`filecheck.dfy`, module `FileCheck`): `arrayBufferToHex` (a loop,
  proved against a recursive definition and a decoder), the 200 MiB guard in `sha256File`, the
  CSS class and heading chosen by `renderResult`, and the CHECK_HASH message the page sends.
- **Shared modules:** `js.dfy` (module `Js`) holds a small model of JavaScript values: `?.`,
  truthiness, `String(v)`, `trim`, ASCII lower-casing. `wrappers.dfy` (module `Wrappers`)
  holds `Option` and `Result`.

Thrown errors become `Result` failures. The outside services are parameters of the
functions:

- the transport (`fetch`);
- `JSON.parse`;
- `encodeURIComponent`;
- the URL parser's `protocol`;
- SHA-256;
- the clock.

The lookup request and the notification a handler causes are returned as data.

## Behaviour notes

Some points about the code are easy to get wrong, so they are stated here:

- HTTP 404 fails like any other non-2xx status (src/api.js:31-37). It is not a no-data
  result.
- `checkUrl` looks up the full URL at `/search/url` (src/api.js:42-44). There is no
  host-only lookup and no domain endpoint.
- A hash is trimmed but not lower-cased before it is looked up (src/background.js:81-83).
  `isProbablyHash` lower-cases only for its own test, so an upper-case hash passes validation
  and is sent as typed.
- A CHECK_HASH message's `meta` field is never attached to the result
  (src/background.js:79-85, src/api.js:62-69).
- The zone is searched at `Zone`, `zone`, `Data.Zone`, `data.Zone` and `data.zone`, in that
  order (src/utils.js:36-42). A zone under `Data.zone` is not found.
- `getSettings` gives a non-empty language and theme except in one case: an array stored
  under the key, because `String([])` is empty (src/storage.js:14-16).

## Model

| member | source | states |
|---|---|---|
| Js.Trim | src/utils.js:5 | The result is the input with a whitespace-only prefix and a whitespace-only suffix cut off. It has no whitespace at either end, and it is empty exactly when the input is all whitespace |
| Js.TrimIdempotent | src/utils.js:17 | Trimming twice is trimming once |
| Js.IntToDecimal | src/api.js:32 | `String(n)` for an integer: a minus sign exactly when the number is negative, then the decimal numeral of its magnitude (digits only, no leading zero, reading back as the magnitude) |
| Js.NatToDecimal | src/api.js:32 | `String(n)` for a non-negative integer: decimal digits only, no leading zero, and they read back as `n` |
| Utils.BareDomainMatchesPattern | src/utils.js:8 | The one-pass bare-domain test agrees with the regular expression on every string: domain characters, then a dot, then two or more letters at the end |
| Utils.NormalizeUrl | src/utils.js:3-14 | The result is empty exactly when the trimmed input is. The result is always trimmed. A bare domain gains `https://`, a `//host` gains `https:`, anything else is just the trimmed input |
| Utils.SchemePrefixedIsStable | src/utils.js:8-11 | A trimmed text with `https://` or `https:` prefixed is left unchanged by normalisation |
| Utils.NormalizeUrlIdempotent | src/utils.js:3-14 | Normalising a normalised URL changes nothing, so the re-normalisation in `isProbablyUrl` is harmless |
| Utils.NormalizeIgnoresSurroundingSpace | src/utils.js:4-5 | Surrounding whitespace never changes the normalised form |
| Utils.SlashSlashIsNotBareDomain | src/utils.js:8-11 | A text starting with `//` never matches the bare-domain pattern, so the two prefixing branches never overlap |
| Utils.BareDomainIsNotProtocolRelative | src/utils.js:8-11 | The same fact for the one-pass test: a bare domain never starts with `//` |
| Utils.IsProbablyUrl | src/utils.js:16-25 | True exactly when the trimmed input is non-empty and the URL parser reads `http:` or `https:` as the protocol of its normalised form |
| Utils.ValidationSeesNormalizedUrl | src/background.js:72-73 | Validating an already normalised URL parses exactly the string that is then looked up |
| Utils.IsProbablyHash | src/utils.js:27-31 | True exactly when the trimmed input has 32, 40 or 64 characters, all hex digits in either case |
| Utils.FirstDefined | src/utils.js:36-42 | The result is the value at the first path that is not null or undefined, and every earlier path is nullish; it is null only when every path is nullish |
| Utils.FindZone | src/utils.js:36-42 | The zone is read from `Zone`, `zone`, `Data.Zone`, `data.Zone`, `data.zone` in that order, with null as the last resort |
| Utils.CanonicalZoneWords | src/utils.js:44-54 | The canonical zones lower-case to the words the classifier tests |
| Utils.ClassifyOpentip | src/utils.js:34-55 | Dangerous iff the zone's lower-cased text is "red"; safe iff it is "green"; yellow and grey/gray give the canonical zones. Any other zone is kept raw, or is "N/A" when none was found. The label always matches verdict and zone, and the zone is never null |
| Utils.ReclassifyIsStable | src/utils.js:44-54 | Classifying a response that holds only the classifier's own zone gives back the same verdict, label and zone |
| Utils.DataLowerZoneIsIgnored | src/utils.js:36-42 | A zone under `Data.zone` is not found: the response classifies as unknown with zone "N/A" |
| Api.OpentipFetch | src/api.js:8-40 | No request is made exactly when the key is empty, and then the call fails with the missing-key error. Any request made is a GET to the base URL plus the path, with exactly two headers: the key, then accept JSON. A 2xx status yields the parsed body; any other status fails with the status and the body; a transport failure is passed on |
| Api.ErrorDetail | src/api.js:32 | The error detail is the text of `message` when it is truthy, else of `error` when that is truthy, else "HTTP " and the status in decimal. It is never empty unless one of the two is an array |
| Api.NotFoundIsAnError | src/api.js:31-37 | A 404 response is a failure carrying status 404 |
| Api.NotFoundWithoutDetail | src/api.js:31-33 | A 404 whose body has neither `message` nor `error` is reported as "HTTP 404" |
| Api.UnparsableBodyFallsBack | src/api.js:23-32 | An unparsable body becomes `{raw: text}`, which classifies as unknown with zone "N/A". Its error message falls back to "HTTP status" |
| Api.EmptyOkBodyIsUnknown | src/api.js:23-39 | A 2xx response with an empty body succeeds with raw null, verdict unknown and zone "N/A" |
| Api.CheckUrl | src/api.js:42-55 | The encoded URL is looked up at the url endpoint, and failures are exactly those of the fetch. A result has type "url" and the unencoded URL as input. Its raw is the parsed body, and its verdict, label and zone are the classifier's |
| Api.CheckHash | src/api.js:57-70 | The same as `checkUrl`, for type "hash" at the hash endpoint |
| Api.ResultJsRoundTrip | src/api.js:47-54 | The object form of a check result reads back as the same result |
| Storage.GetSettings | src/storage.js:11-18 | Each field is the `String` text of the stored value when that value is truthy, and the default when the key is absent or its value falsy. Language and theme are non-empty unless an array is stored |
| Storage.SetSettings | src/storage.js:20-25 | The returned settings are the current ones overridden field by field by the patch. Exactly those are written, and no other key changes |
| Storage.SetSettingsThenGet | src/storage.js:11-25 | Reading after `setSettings` gives back what it returned, with empty fields replaced by their defaults |
| Storage.ClearApiKey | src/storage.js:27-29 | Afterwards the key reads as empty. Language, theme and every other key are unchanged |
| Storage.GetLastResult | src/storage.js:31-34 | The stored result, or null when the slot is missing or holds null or undefined; null exactly in those cases, and never undefined |
| Storage.SetLastResult | src/storage.js:36-38 | The slot reads back as the result, which decodes to the same check result. Settings and all other keys are unchanged |
| Storage.SettingsUpdatesKeepLastResult | src/storage.js:20-29 | Neither settings update touches the last result |
| Background.ThrownText | src/background.js:96 | The text of a thrown lookup error: the error's message, which is never empty for a lookup or missing-key error, and falls back to the name for a transport error |
| Background.FormatVerdictMessage | src/background.js:114-118 | Starts with "URL: " exactly for url results and with "HASH: " otherwise, and the input follows. It ends with a new line, "Вердикт: " and the label, then " (Zone: z)" exactly when the zone is truthy. Nothing else lies between the parts |
| Background.VerdictMessageNamesInput | src/background.js:114-118 | For the same kind, label and zone, two results give the same notification text only when their inputs are equal |
| Background.SaveAndNotify | src/background.js:100-112 | The slot holds exactly the object form of the given result stamped with the time, and every other key is unchanged. A notification with the verdict message is raised exactly when asked for |
| Background.FinishMessageCheck | src/background.js:74-76 | A successful lookup is stored stamped and replied unstamped, with no notification. A failure replies with the thrown text and leaves the store alone. Its effect is the lookup's recorded effect |
| Background.HandleCheckUrl | src/background.js:70-77 | An invalid URL gets the fixed error with no request and no write. Any request made is for the validated, normalised URL. A stored result is the reply stamped |
| Background.HandleCheckHash | src/background.js:79-86 | An invalid hash gets the fixed error with no request and no write. Otherwise the trimmed hash is looked up with the stored key |
| Background.OnMessage | src/background.js:65-98 | A non-object gets no reply. A lookup is issued only for a validated CHECK_URL or CHECK_HASH subject. The store changes only by recording the stamped result. Check messages are always answered with a result or an error. GET_LAST_RESULT and PING get the slot and the time. Any other type gets no reply and changes nothing. Nothing notifies |
| Background.InvalidSubjectIsRejectedFirst | src/background.js:70-86 | A malformed URL or hash is refused with its fixed message, before any request and without any write |
| Background.LookupFailureIsWrapped | src/background.js:79-97 | A failed hash lookup is answered with `{error: true, message}` carrying the thrown text, and nothing is stored |
| Background.HashMessagesGoToHashCheck | src/background.js:79-86 | Every object with type CHECK_HASH is handled by the hash branch |
| Background.StoredResultIsStamped | src/background.js:100-105 | After a successful check, the slot decodes to the replied result plus the time, and the settings are unchanged |
| Background.Recorded | src/background.js:100-105 | A lookup's effect: the request it made, and the store untouched on failure. On success the slot holds exactly the stamped result's object form, and every other key is unchanged |
| Background.UrlLookup | src/background.js:70-77 | The effect of checking a URL: nothing when the URL check refuses it; otherwise the request to the url endpoint for that URL |
| Background.TypeOf | src/background.js:70-92 | Each of CHECK_URL, CHECK_HASH, GET_LAST_RESULT and PING selects its own branch exactly when `msg.type` is that string |
| Background.MessageNamesDistinct | src/background.js:70-92 | The four message type names are different strings, so at most one branch matches |
| Background.MenuIdsDistinct | src/background.js:7-8 | The two menu item ids are different strings, so a click matches at most one branch |
| Background.SelectedTextLookup | src/background.js:47-59 | A click on the selection item with truthy text has the effect of checking the trimmed, normalised text |
| Background.SelectionClicksGoToSelectionCheck | src/background.js:47 | A click on the selection item with truthy text is handled by the selection branch |
| Background.UrlMessagesGoToUrlCheck | src/background.js:70-77 | Every object with type CHECK_URL is handled by the URL branch |
| Background.UrlMessageLookup | src/background.js:70-77 | A CHECK_URL message has the effect of checking the normalised form of its text |
| Background.SelectionClickLookup | src/background.js:47-59 | A selection click has the effect of checking the normalised form of the selected text; empty text does nothing |
| Background.SelectionAgreesWithPopup | src/background.js:47-77 | Checking a selection from the context menu and checking the same text from the popup issue the same request and leave the same store; only the notification differs |
| Background.FinishMenuCheck | src/background.js:42-62 | Every menu lookup ends in a notification. A success is stored stamped and notified under "КиберЛинза" with the verdict message. A failure is notified under "КиберЛинза: ошибка" with the thrown text, and the store is kept |
| Background.OnMenuClick | src/background.js:35-63 | Never replies. Any lookup ends in a notification. The store changes only with the verdict notification. A truthy link is handled by the link branch, whose effect is exactly checking the normalised link. Selected text is looked up only if it passes the URL check. A click on neither item with its data does nothing |
| Background.HandleLinkClick | src/background.js:40-45 | The normalised link is looked up with the stored key, without validation, and the outcome is finished as every menu lookup is: the verdict message on success, the error notification otherwise |
| Background.LinkIsLookedUpUnvalidated | src/background.js:40-45 | With a key set, a click on a truthy link always sends the url-endpoint request for the normalised link, even when the URL check would refuse it, and always notifies |
| Background.LinkFailureIsNotified | src/background.js:40-62 | A link lookup that fails raises "КиберЛинза: ошибка" with the thrown text and stores nothing |
| Background.LinkWithoutKeyIsRefused | src/background.js:37-62 | With no key set, a link click sends nothing and raises the error notification with the missing-key message |
| Background.HandleSelectionClick | src/background.js:47-59 | Selected text that fails the URL check gets the "not a URL" notification with no request and no write. Otherwise it is looked up and the outcome notified |
| FileCheck.ByteToHex | src/filecheck.js:33 | `toString(16).padStart(2, "0")` of a byte is always its high and low hex digit |
| FileCheck.HexEncode | src/filecheck.js:30-35 | The hex text has two lower-case hex digits per byte |
| FileCheck.HexEncodeAt | src/filecheck.js:33 | Byte j is written at digits 2j and 2j+1, high nibble first |
| FileCheck.HexEncodeAppend | src/filecheck.js:33 | Appending a byte appends its two digits |
| FileCheck.ArrayBufferToHex | src/filecheck.js:30-35 | The loop computes the hex text: twice as long as the input, and it decodes back to the bytes |
| FileCheck.HexRoundTrip | src/filecheck.js:30-35 | Decoding the hex text gives back the bytes |
| FileCheck.HexEncodeInjective | src/filecheck.js:30-35 | Different byte sequences have different hex texts |
| FileCheck.HexDecodeEncode | src/filecheck.js:30-35 | Lower-case hex text of even length decodes, and re-encoding the bytes gives the same text |
| FileCheck.LowerHashIsDigestHex | src/utils.js:27-31 | Trimmed text without upper-case letters passes the hash validator exactly when it is the hex of an MD5, SHA-1 or SHA-256 digest (16, 20 or 32 bytes) |
| FileCheck.LowerHexDigestDecodes | src/utils.js:27-31 | Lower-case hex of 32, 40 or 64 digits decodes to 16, 20 or 32 bytes that encode back to it |
| FileCheck.DigestSizedHexIsProbablyHash | src/utils.js:27-31 | The hex of any 16, 20 or 32 bytes passes the hash validator |
| FileCheck.DigestHexIsProbablyHash | src/filecheck.js:44-45 | A 32-byte digest in hex is 64 digits and passes the hash validator |
| FileCheck.Sha256File | src/filecheck.js:30-46 | Succeeds exactly when the file is at most 200 MiB; otherwise fails with the file's size. The result is the lower-case hex of the file's digest: 64 digits that pass the hash validator and decode to the digest |
| FileCheck.VerdictClass | src/filecheck.js:54-69 | No class for a falsy reply; "unk" for an error reply. Otherwise "ok" exactly when the verdict is "safe", "bad" exactly when it is "dangerous", and "unk" for anything else |
| FileCheck.RenderedClassFollowsVerdict | src/filecheck.js:59-69 | A check result renders with its verdict's class, every error reply renders "unk", and no reply renders no class |
| FileCheck.KindLabel | src/filecheck.js:71-74 | The heading is HASH, DOMAIN or URL for those types. It is `String(type)` for any other truthy type, and RESULT when the type is falsy |
| FileCheck.HeadingMatchesNotification | src/filecheck.js:71-74 | A url or hash result is headed on the page by the word that opens its notification |
| FileCheck.HashCheckMessageCarriesHash | src/filecheck.js:156-164 | The page's message carries a trimmed hash unchanged to the background's hash check |
| FileCheck.ValidHashMessageIsLookedUp | src/background.js:79-86 | A CHECK_HASH message with a valid trimmed hash, and a key set, sends the hash-endpoint request with that key. A successful reply is a hash result about that text |
| FileCheck.HashedFileReachesLookup | src/filecheck.js:151-164 | With a key set, a file within the limit always passes validation, and its digest's hex is looked up. A successful reply is a hash result about that hex |

## Left out

- The network, `browser.storage`, `browser.notifications`, `browser.contextMenus` and the
  DOM: the store is a map, requests and notifications are returned as data, and the DOM text
  of `renderResult` is not modelled (only its class and heading).
- SHA-256 (`crypto.subtle.digest`) is a parameter returning 32 bytes. `JSON.parse`,
  `encodeURIComponent` and the WHATWG URL parser (reduced to the `protocol` it reports) are
  parameters too.
- `nowIso`: the current time is a parameter. `formatBytes`: it only formats the too-large
  error text and the file size shown on the page.
- `ensureMenus` and the install/startup listeners only register the two menu items. The
  theme handling, `popup.js` and `options.js` are UI glue.
- Numbers are integers: no floating point and no `NaN`.
- Js.ToStr prints every integer in full decimal. JavaScript prints a magnitude of 10^21 or
  more in exponent form (`String(1e21)` is "1e+21") and does not hold integers above 2^53
  exactly. Such a number in a zone or an error field would read differently in the
  notification or the error message.
- Strings are sequences of Unicode scalar values, so a JavaScript string holding a lone
  surrogate cannot be represented. On such text `encodeURIComponent` throws a `URIError`
  (src/api.js:43). The check then fails without a request, while the model's `encode`
  parameter is total and a request is always sent.
- `trim` uses a fixed set of whitespace characters (space, tab, line feed, carriage return,
  vertical tab, form feed, no-break space, the two Unicode line/paragraph separators and the
  byte-order mark), not every Unicode space separator.
- `toLowerCase` is modelled on ASCII letters only. Every comparison the code makes after
  lower-casing is against ASCII text (hex digits and zone words), and no non-ASCII character
  lower-cases to one of those letters.
- Storage.SetSettings: a patch carries only the three known settings as strings. The
  JavaScript spreads any object it is given.
- Storage failures (a rejected `browser.storage` call) are not modelled; neither are failures
  of `browser.notifications`, which the code ignores.
- The menu handler's catch also covers a failure of `getSettings` or of the store write. Only
  lookup failures are modelled as thrown errors.
- Js.ToStr: every object's text is "[object Object]". A parsed object that carries its own
  `toString` or `valueOf` key changes `String(o)`, or makes it throw (for example a zone of
  `{"toString": 1}`), and that case is not modelled. The classifier and the error message
  then see "[object Object]" where the code would throw.
- Background.ThrownText: only errors raised by the lookup are modelled. For a transport error
  without a message, `String(e)` is taken to be the error's name.

=== FILE: api.dfy ===
/** The lookup client: the authenticated GET against the lookup service, the body-parse
    fallback, the translation of HTTP failures into errors, and the construction of a check
    result from the classified response. The transport, the JSON parser and the URI-component
    encoder are parameters. */
module Api {
  import opened Wrappers
  import opened Js
  import opened Utils

  const Base := "https://opentip.kaspersky.com/api/v1"
  const MissingKeyMessage := "Не задан API-ключ. Откройте настройки расширения и вставьте ключ OpenTIP."
  const UpstreamErrorPrefix := "Ошибка OpenTIP: "

  /** An HTTP request as handed to the transport. */
  datatype Request = Request(verb: string, url: string, headers: seq<(string, string)>)

  /** What the transport yields: a response (status and body text), or a rejection. */
  datatype HttpOutcome =
    | Response(status: int, body: string)
    | NetworkError(name: string, message: string)

  /** The errors a lookup can end in. */
  datatype ApiError =
    | MissingApiKey
    | HttpError(status: int, data: Value)
    | Transport(name: string, message: string)

  /** A lookup: the request that was issued, if any, and what came of it. */
  datatype Fetched<T> = Fetched(sent: Option<Request>, result: Result<T, ApiError>)

  /** `res.ok`. */
  predicate IsOk(status: int) {
    200 <= status <= 299
  }

  /** The request for `path`, authenticated with `apiKey`, asking for JSON. */
  function RequestFor(path: string, apiKey: string): Request {
    Request("GET", Base + path, [("x-api-key", apiKey), ("accept", "application/json")])
  }

  /** Reading the body: empty text is null, unparsable text is wrapped as `{raw: text}`. */
  function ParseBody(text: string, parseJson: string -> Option<Value>): Value {
    if text == "" then Null
    else
      match parseJson(text)
      case Some(v) => v
      case None => Obj(map["raw" := Str(text)])
  }

  /** The detail of an HTTP error: `data.message`, else `data.error`, else "HTTP <status>". */
  function ErrorDetail(data: Value, status: int): (r: string)
    ensures Truthy(Get(data, "message")) ==> r == ToStr(Get(data, "message"))
    ensures !Truthy(Get(data, "message")) && Truthy(Get(data, "error")) ==> r == ToStr(Get(data, "error"))
    ensures !Truthy(Get(data, "message")) && !Truthy(Get(data, "error")) ==> r == "HTTP " + IntToDecimal(status)
    ensures !Get(data, "message").Arr? && !Get(data, "error").Arr? ==> r != ""
  {
    var message := Get(data, "message");
    var error := Get(data, "error");
    TruthyTextIsNonEmpty(message);
    TruthyTextIsNonEmpty(error);
    if Truthy(message) then ToStr(message)
    else if Truthy(error) then ToStr(error)
    else "HTTP " + IntToDecimal(status)
  }

  /** The `message` of the error object thrown for each kind of failure. */
  function ErrorMessage(e: ApiError): string {
    match e
    case MissingApiKey => MissingKeyMessage
    case HttpError(status, data) => UpstreamErrorPrefix + ErrorDetail(data, status)
    case Transport(_, message) => message
  }

  /** `opentipFetch`: a missing key fails before anything is sent; otherwise exactly one GET to
      `Base + path` carrying the key; the body never fails to parse; a non-ok status (404
      included) fails carrying status and parsed body; an ok status yields the parsed body. */
  function OpentipFetch(path: string, apiKey: string, fetch: Request -> HttpOutcome,
                        parseJson: string -> Option<Value>): (r: Fetched<Value>)
    ensures r.sent.None? <==> apiKey == ""
    ensures apiKey == "" ==> r.result == Failure(MissingApiKey)
    ensures r.sent.Some? ==> && r.sent.value.verb == "GET"
                             && r.sent.value.url == Base + path
                             && r.sent.value.headers == [("x-api-key", apiKey), ("accept", "application/json")]
    ensures r.sent.Some? && fetch(r.sent.value).Response? ==>
              var res := fetch(r.sent.value);
              var data := ParseBody(res.body, parseJson);
              r.result == if IsOk(res.status) then Success(data) else Failure(HttpError(res.status, data))
    ensures r.sent.Some? && fetch(r.sent.value).NetworkError? ==>
              r.result == Failure(Transport(fetch(r.sent.value).name, fetch(r.sent.value).message))
  {
    if apiKey == "" then Fetched(None, Failure(MissingApiKey))
    else
      var request := RequestFor(path, apiKey);
      match fetch(request)
      case NetworkError(name, message) => Fetched(Some(request), Failure(Transport(name, message)))
      case Response(status, body) =>
        var data := ParseBody(body, parseJson);
        if !IsOk(status) then Fetched(Some(request), Failure(HttpError(status, data)))
        else Fetched(Some(request), Success(data))
  }

  /** The two kinds of subject the client can look up. */
  datatype Subject = UrlSubject | HashSubject

  /** The `type` recorded in a result, which is also the endpoint name. */
  function KindName(k: Subject): string {
    match k
    case UrlSubject => "url"
    case HashSubject => "hash"
  }

  function SearchPath(k: Subject, encoded: string): string {
    "/search/" + KindName(k) + "?request=" + encoded
  }

  /** A check result. `ts` is set only when the result is stored. */
  datatype CheckResult = CheckResult(
    kind: string,
    input: string,
    verdict: Verdict,
    labelText: string,
    zone: Value,
    raw: Value,
    ts: Option<string>)

  /** The shared body of `checkUrl` and `checkHash`. */
  function Check(k: Subject, input: string, apiKey: string, fetch: Request -> HttpOutcome,
                 parseJson: string -> Option<Value>, encode: string -> string): Fetched<CheckResult>
  {
    var fetched := OpentipFetch(SearchPath(k, encode(input)), apiKey, fetch, parseJson);
    match fetched.result
    case Failure(e) => Fetched(fetched.sent, Failure(e))
    case Success(data) =>
      var c := ClassifyOpentip(data);
      Fetched(fetched.sent, Success(CheckResult(KindName(k), input, c.verdict, c.labelText, c.zone, data, None)))
  }

  /** `checkUrl`: looks up the full URL; on success the result is of type "url", keeps the
      argument (not its encoding) as input, carries the parsed body as raw and exactly the
      classifier's verdict, label and zone for it; failures are those of the fetch. */
  function CheckUrl(url: string, apiKey: string, fetch: Request -> HttpOutcome,
                    parseJson: string -> Option<Value>, encode: string -> string): (r: Fetched<CheckResult>)
    ensures r.sent == OpentipFetch("/search/url?request=" + encode(url), apiKey, fetch, parseJson).sent
    ensures r.sent.Some? ==> r.sent.value.url == Base + "/search/url?request=" + encode(url)
    ensures r.result.Failure? <==> OpentipFetch("/search/url?request=" + encode(url), apiKey, fetch, parseJson).result.Failure?
    ensures r.result.Failure? ==> r.result.error == OpentipFetch("/search/url?request=" + encode(url), apiKey, fetch, parseJson).result.error
    ensures r.result.Success? ==>
              && r.result.value.kind == "url"
              && r.result.value.input == url
              && r.result.value.ts.None?
              && Success(r.result.value.raw) == OpentipFetch("/search/url?request=" + encode(url), apiKey, fetch, parseJson).result
              && ClassifyOpentip(r.result.value.raw)
                 == Classification(r.result.value.verdict, r.result.value.labelText, r.result.value.zone)
  {
    assert SearchPath(UrlSubject, encode(url)) == "/search/url?request=" + encode(url);
    Check(UrlSubject, url, apiKey, fetch, parseJson, encode)
  }

  /** `checkHash`: as `checkUrl`, but of type "hash" against the hash endpoint. */
  function CheckHash(hash: string, apiKey: string, fetch: Request -> HttpOutcome,
                     parseJson: string -> Option<Value>, encode: string -> string): (r: Fetched<CheckResult>)
    ensures r.sent == OpentipFetch("/search/hash?request=" + encode(hash), apiKey, fetch, parseJson).sent
    ensures r.sent.Some? ==> r.sent.value.url == Base + "/search/hash?request=" + encode(hash)
    ensures r.result.Failure? <==> OpentipFetch("/search/hash?request=" + encode(hash), apiKey, fetch, parseJson).result.Failure?
    ensures r.result.Failure? ==> r.result.error == OpentipFetch("/search/hash?request=" + encode(hash), apiKey, fetch, parseJson).result.error
    ensures r.result.Success? ==>
              && r.result.value.kind == "hash"
              && r.result.value.input == hash
              && r.result.value.ts.None?
              && Success(r.result.value.raw) == OpentipFetch("/search/hash?request=" + encode(hash), apiKey, fetch, parseJson).result
              && ClassifyOpentip(r.result.value.raw)
                 == Classification(r.result.value.verdict, r.result.value.labelText, r.result.value.zone)
  {
    assert SearchPath(HashSubject, encode(hash)) == "/search/hash?request=" + encode(hash);
    Check(HashSubject, hash, apiKey, fetch, parseJson, encode)
  }

  /** A 404 whose body carries neither `message` nor `error` is reported as "HTTP 404". */
  lemma NotFoundWithoutDetail(data: Value)
    requires !Truthy(Get(data, "message")) && !Truthy(Get(data, "error"))
    ensures ErrorDetail(data, 404) == "HTTP 404"
  {
    assert NatToDecimal(4) == "4";
    assert NatToDecimal(40) == "40";
    assert NatToDecimal(404) == "404";
  }

  /** HTTP 404 is an ordinary failure: no result is produced and the error names the status. */
  lemma NotFoundIsAnError(path: string, apiKey: string, fetch: Request -> HttpOutcome,
                          parseJson: string -> Option<Value>)
    requires apiKey != ""
    requires fetch(RequestFor(path, apiKey)).Response? && fetch(RequestFor(path, apiKey)).status == 404
    ensures OpentipFetch(path, apiKey, fetch, parseJson).result.Failure?
    ensures OpentipFetch(path, apiKey, fetch, parseJson).result.error.HttpError?
    ensures OpentipFetch(path, apiKey, fetch, parseJson).result.error.status == 404
  {
  }

  /** A body that does not parse never causes a failure of its own: an ok response yields the
      `{raw: text}` wrapper, which classifies as unknown with zone "N/A"; a failed response
      falls back to the "HTTP <status>" message. */
  lemma UnparsableBodyFallsBack(text: string, parseJson: string -> Option<Value>, status: int)
    requires text != "" && parseJson(text).None?
    ensures ParseBody(text, parseJson) == Obj(map["raw" := Str(text)])
    ensures ClassifyOpentip(ParseBody(text, parseJson)) == Classification(Unknown, LabelUnknown, Str("N/A"))
    ensures ErrorDetail(ParseBody(text, parseJson), status) == "HTTP " + IntToDecimal(status)
  {
    var d := ParseBody(text, parseJson);
    assert FindZone(d) == Null;
  }

  /** An ok response with an empty body classifies as unknown with zone "N/A". */
  lemma EmptyOkBodyIsUnknown(k: Subject, input: string, apiKey: string, fetch: Request -> HttpOutcome,
                             parseJson: string -> Option<Value>, encode: string -> string)
    requires apiKey != ""
    requires fetch(RequestFor(SearchPath(k, encode(input)), apiKey)).Response?
    requires IsOk(fetch(RequestFor(SearchPath(k, encode(input)), apiKey)).status)
    requires fetch(RequestFor(SearchPath(k, encode(input)), apiKey)).body == ""
    ensures Check(k, input, apiKey, fetch, parseJson, encode).result.Success?
    ensures Check(k, input, apiKey, fetch, parseJson, encode).result.value.verdict == Unknown
    ensures Check(k, input, apiKey, fetch, parseJson, encode).result.value.zone == Str("N/A")
    ensures Check(k, input, apiKey, fetch, parseJson, encode).result.value.raw == Null
  {
    assert FindZone(Null) == Null;
  }

  // ---------------------------------------------------------------------------------------
  // Check results as JavaScript objects (the shape that is stored and sent in replies)
  // ---------------------------------------------------------------------------------------

  function VerdictFromName(s: string): Option<Verdict> {
    if s == "safe" then Some(Safe)
    else if s == "dangerous" then Some(Dangerous)
    else if s == "unknown" then Some(Unknown)
    else None
  }

  /** The object `{type, input, verdict, label, zone, raw}`, plus `ts` once stamped. */
  function ResultToJs(c: CheckResult): Value {
    var fields := map["type" := Str(c.kind), "input" := Str(c.input),
                      "verdict" := Str(VerdictName(c.verdict)), "label" := Str(c.labelText),
                      "zone" := c.zone, "raw" := c.raw];
    Obj(if c.ts.Some? then fields["ts" := Str(c.ts.value)] else fields)
  }

  /** Reads a check result back from its object form. */
  function ResultFromJs(v: Value): Option<CheckResult> {
    if !v.Obj? then None
    else
      var f := v.fields;
      if && "type" in f && f["type"].Str?
         && "input" in f && f["input"].Str?
         && "verdict" in f && f["verdict"].Str? && VerdictFromName(f["verdict"].s).Some?
         && "label" in f && f["label"].Str?
         && "zone" in f && "raw" in f
         && ("ts" in f ==> f["ts"].Str?)
      then
        Some(CheckResult(f["type"].s, f["input"].s, VerdictFromName(f["verdict"].s).value,
                         f["label"].s, f["zone"], f["raw"], if "ts" in f then Some(f["ts"].s) else None))
      else None
  }

  /** The object form loses nothing: reading it back gives the same result. */
  lemma ResultJsRoundTrip(c: CheckResult)
    ensures ResultFromJs(ResultToJs(c)) == Some(c)
  {
    assert VerdictFromName(VerdictName(c.verdict)) == Some(c.verdict);
  }
}

=== FILE: background.dfy ===
/** The background script's decisions: the runtime-message handler, the context-menu handler,
    storing a result with its timestamp, and the notification text. Each handler is a function
    from the incoming event, the store, the outside services and the current time to the reply,
    the new store, the lookup request it issued (if any) and the notification it raised (if any). */
module Background {
  import opened Wrappers
  import opened Js
  import opened Utils
  import opened Api
  import opened Storage

  const NotifyTitle := "КиберЛинза"
  const ErrorTitle := "КиберЛинза: ошибка"
  const InvalidUrlMessage := "Некорректный URL."
  const InvalidHashMessage := "Хэш должен быть MD5(32) / SHA1(40) / SHA256(64) в hex."
  const SelectionNotUrlMessage := "Выделенный текст не похож на URL. Откройте popup и проверьте вручную."
  const MenuCheckSelection := "cyberlens_check_selection"
  const MenuCheckLink := "cyberlens_check_link"

  /** The services a handler consults: the transport, `JSON.parse`, `encodeURIComponent`, and
      the URL parser's `protocol` (None when `new URL` throws). */
  datatype Env = Env(fetch: Request -> HttpOutcome, parseJson: string -> Option<Value>,
                     encode: string -> string, protocolOf: string -> Option<string>)

  datatype Notice = Notice(title: string, message: string)

  /** What a runtime message is answered with. */
  datatype Reply =
    | NoReply
    | Checked(result: CheckResult)
    | LastResult(value: Value)
    | Pong(ts: string)
    | Failed(message: string)

  /** The uniform error shape `{error: true, message}`. */
  function ErrorObject(message: string): Value {
    Obj(map["error" := Bool(true), "message" := Str(message)])
  }

  /** The reply as the JavaScript value the sender receives. */
  function ReplyToJs(reply: Reply): Value {
    match reply
    case NoReply => Undefined
    case Checked(c) => ResultToJs(c)
    case LastResult(v) => v
    case Pong(ts) => Obj(map["ok" := Bool(true), "ts" := Str(ts)])
    case Failed(message) => ErrorObject(message)
  }

  /** `String(e?.message || e)` for a thrown lookup error: its message, or, for a transport
      error without one, the error's name. */
  function ThrownText(e: ApiError): (t: string)
    ensures !e.Transport? ==> t == ErrorMessage(e) && t != ""
    ensures e.Transport? ==> t == (if e.message != "" then e.message else e.name)
  {
    match e
    case Transport(name, message) => if message != "" then message else name
    case _ => ErrorMessage(e)
  }

  /** `{...result, ts}`. */
  function Stamp(c: CheckResult, now: string): CheckResult {
    c.(ts := Some(now))
  }

  /** `formatVerdictMessage`: "URL" heads the message exactly for url results ("HASH" for every
      other type), the input follows, and the message ends with the verdict label on its own
      line, followed by " (Zone: z)" only when the zone is truthy. */
  function FormatVerdictMessage(c: CheckResult): (m: string)
    ensures StartsWith(m, "URL: ") <==> c.kind == "url"
    ensures c.kind != "url" ==> StartsWith(m, "HASH: ")
    ensures var p := if c.kind == "url" then 5 else 6;
            |m| >= p + |c.input| && m[p..p + |c.input|] == c.input
    ensures EndsWith(m, "\nВердикт: " + c.labelText + (if Truthy(c.zone) then " (Zone: " + ToStr(c.zone) + ")" else ""))
    ensures |m| == (if c.kind == "url" then 5 else 6) + |c.input|
                   + |"\nВердикт: " + c.labelText + (if Truthy(c.zone) then " (Zone: " + ToStr(c.zone) + ")" else "")|
  {
    var prefix := if c.kind == "url" then "URL" else "HASH";
    var zone := if Truthy(c.zone) then " (Zone: " + ToStr(c.zone) + ")" else "";
    var m := prefix + ": " + c.input + "\nВердикт: " + c.labelText + zone;
    assert m == (prefix + ": ") + c.input + ("\nВердикт: " + c.labelText + zone);
    assert m == (prefix + ": " + c.input + "\nВердикт: " + c.labelText) + zone;
    assert m[0] == prefix[0];
    m
  }

  /** The notification names its input: two results of the same kind, label and zone give the
      same message only when their inputs are equal. */
  lemma VerdictMessageNamesInput(c1: CheckResult, c2: CheckResult)
    requires (c1.kind == "url") == (c2.kind == "url")
    requires c1.labelText == c2.labelText && c1.zone == c2.zone
    ensures FormatVerdictMessage(c1) == FormatVerdictMessage(c2) ==> c1.input == c2.input
  {
    var m := FormatVerdictMessage(c1);
    if m == FormatVerdictMessage(c2) {
      var p := if c1.kind == "url" then 5 else 6;
      assert |c1.input| == |c2.input|;
      assert c1.input == m[p..p + |c1.input|] == c2.input;
    }
  }

  datatype Saved = Saved(store: Store, notice: Option<Notice>)

  /** `saveAndNotify`: the stored result is the given one stamped with `now`; a notification
      summarising the unstamped result is raised exactly when asked for. */
  function SaveAndNotify(store: Store, c: CheckResult, now: string, notify: bool): (s: Saved)
    ensures ResultFromJs(GetLastResult(s.store)) == Some(c.(ts := Some(now)))
    ensures GetLastResult(s.store) == ResultToJs(c.(ts := Some(now)))
    ensures forall k :: k != LastResultKey ==> (k in s.store <==> k in store) && (k in store ==> s.store[k] == store[k])
    ensures GetSettings(s.store) == GetSettings(store)
    ensures s.notice.Some? <==> notify
    ensures notify ==> s.notice.value == Notice(NotifyTitle, FormatVerdictMessage(c))
  {
    Saved(SetLastResult(store, Stamp(c, now)),
          if notify then Some(Notice(NotifyTitle, FormatVerdictMessage(c))) else None)
  }

  /** The effect of handling one event. */
  datatype Handled = Handled(reply: Reply, store: Store, sent: Option<Request>, notice: Option<Notice>)

  /** The outside effect of a finished lookup, whichever handler asked for it: the request
      issued and the store afterwards. */
  datatype Lookup = Lookup(sent: Option<Request>, store: Store)

  /** A lookup's effect: the request it made, and the stamped result recorded on success. */
  function Recorded(fetched: Fetched<CheckResult>, store: Store, now: string): (l: Lookup)
    ensures l.sent == fetched.sent
    ensures fetched.result.Failure? ==> l.store == store
    ensures fetched.result.Success? ==> ResultFromJs(GetLastResult(l.store)) == Some(fetched.result.value.(ts := Some(now)))
    ensures fetched.result.Success? ==> GetLastResult(l.store) == ResultToJs(fetched.result.value.(ts := Some(now)))
    ensures forall k :: k != LastResultKey ==> (k in l.store <==> k in store) && (k in store ==> l.store[k] == store[k])
  {
    match fetched.result
    case Failure(_) => Lookup(fetched.sent, store)
    case Success(c) => Lookup(fetched.sent, SetLastResult(store, Stamp(c, now)))
  }

  /** The end of a message-triggered check: a failure becomes the error reply with the store
      untouched; a success is stored stamped, without a notification, and returned unstamped. */
  function FinishMessageCheck(fetched: Fetched<CheckResult>, store: Store, now: string): (h: Handled)
    ensures h.notice.None? && h.sent == fetched.sent
    ensures h.reply.Checked? || h.reply.Failed?
    ensures h.reply.Checked? ==> fetched.result == Success(h.reply.result)
                                 && h.store == SetLastResult(store, Stamp(h.reply.result, now))
    ensures h.reply.Failed? ==> fetched.result.Failure? && h.store == store
                                && h.reply.message == ThrownText(fetched.result.error)
    ensures Lookup(h.sent, h.store) == Recorded(fetched, store, now)
  {
    match fetched.result
    case Failure(e) => Handled(Failed(ThrownText(e)), store, fetched.sent, None)
    case Success(c) =>
      var saved := SaveAndNotify(store, c, now, false);
      Handled(Checked(c), saved.store, fetched.sent, saved.notice)
  }

  /** The URL a CHECK_URL message asks about: `normalizeUrl(msg.url || "")`. */
  function MessageUrl(msg: Value): string {
    NormalizeUrl(TextOr(Get(msg, "url")))
  }

  /** The hash a CHECK_HASH message asks about: `String(msg.hash || "").trim()`. */
  function MessageHash(msg: Value): string {
    Trim(TextOr(Get(msg, "hash")))
  }

  /** A lookup request that a validated CHECK_URL message may issue. */
  ghost predicate IsValidatedUrlLookup(msg: Value, env: Env, request: Request) {
    && Get(msg, "type") == Str("CHECK_URL")
    && IsProbablyUrl(MessageUrl(msg), env.protocolOf)
    && request.url == Base + "/search/url?request=" + env.encode(MessageUrl(msg))
  }

  /** A lookup request that a validated CHECK_HASH message may issue. */
  ghost predicate IsValidatedHashLookup(msg: Value, env: Env, request: Request) {
    && Get(msg, "type") == Str("CHECK_HASH")
    && IsProbablyHash(MessageHash(msg))
    && request.url == Base + "/search/hash?request=" + env.encode(MessageHash(msg))
  }

  /** CHECK_URL: normalise, validate, then look up with the stored key. */
  function HandleCheckUrl(msg: Value, store: Store, env: Env, now: string): (h: Handled)
    requires Get(msg, "type") == Str("CHECK_URL")
    ensures h.notice.None?
    ensures h.reply.Checked? || h.reply.Failed?
    ensures h.sent.Some? ==> IsValidatedUrlLookup(msg, env, h.sent.value)
    ensures h.reply.Checked? ==> h.reply.result.ts.None? && h.store == SetLastResult(store, Stamp(h.reply.result, now))
    ensures h.reply.Failed? ==> h.store == store
    ensures !IsProbablyUrl(MessageUrl(msg), env.protocolOf) ==> h == Handled(Failed(InvalidUrlMessage), store, None, None)
    ensures IsProbablyUrl(MessageUrl(msg), env.protocolOf) ==>
              h == FinishMessageCheck(CheckUrl(MessageUrl(msg), GetSettings(store).apiKey, env.fetch,
                                               env.parseJson, env.encode), store, now)
  {
    var url := MessageUrl(msg);
    if !IsProbablyUrl(url, env.protocolOf) then Handled(Failed(InvalidUrlMessage), store, None, None)
    else
      var fetched := CheckUrl(url, GetSettings(store).apiKey, env.fetch, env.parseJson, env.encode);
      FinishMessageCheck(fetched, store, now)
  }

  /** CHECK_HASH: trim, validate, then look up the trimmed hash (its case kept) with the stored key. */
  function HandleCheckHash(msg: Value, store: Store, env: Env, now: string): (h: Handled)
    requires Get(msg, "type") == Str("CHECK_HASH")
    ensures h.notice.None?
    ensures h.reply.Checked? || h.reply.Failed?
    ensures h.sent.Some? ==> IsValidatedHashLookup(msg, env, h.sent.value)
    ensures h.reply.Checked? ==> h.reply.result.ts.None? && h.store == SetLastResult(store, Stamp(h.reply.result, now))
    ensures h.reply.Failed? ==> h.store == store
    ensures !IsProbablyHash(MessageHash(msg)) ==> h == Handled(Failed(InvalidHashMessage), store, None, None)
    ensures IsProbablyHash(MessageHash(msg)) ==>
              h == FinishMessageCheck(CheckHash(MessageHash(msg), GetSettings(store).apiKey, env.fetch,
                                                env.parseJson, env.encode), store, now)
  {
    var hash := MessageHash(msg);
    if !IsProbablyHash(hash) then Handled(Failed(InvalidHashMessage), store, None, None)
    else
      var fetched := CheckHash(hash, GetSettings(store).apiKey, env.fetch, env.parseJson, env.encode);
      FinishMessageCheck(fetched, store, now)
  }

  /** The runtime-message handler. A non-object gets no reply. A lookup is issued only for a
      check message whose subject passed validation. The store changes only by recording a
      successful check, stamped with `now`, while the reply carries it unstamped. Check messages
      are always answered with a result or an error. Nothing here notifies. */
  function OnMessage(msg: Value, store: Store, env: Env, now: string): (h: Handled)
    ensures h.notice.None?
    ensures !(msg.Obj? || msg.Arr?) ==> h.reply.NoReply? && h.store == store && h.sent.None?
    ensures h.sent.Some? ==> IsValidatedUrlLookup(msg, env, h.sent.value) || IsValidatedHashLookup(msg, env, h.sent.value)
    ensures h.reply.Checked? ==> h.reply.result.ts.None? && h.store == SetLastResult(store, Stamp(h.reply.result, now))
    ensures !h.reply.Checked? ==> h.store == store
    ensures (msg.Obj? || msg.Arr?) && (Get(msg, "type") == Str("CHECK_URL") || Get(msg, "type") == Str("CHECK_HASH"))
            ==> h.reply.Checked? || h.reply.Failed?
    ensures (msg.Obj? || msg.Arr?) && Get(msg, "type") == Str("GET_LAST_RESULT")
            ==> h.reply == LastResult(GetLastResult(store))
    ensures (msg.Obj? || msg.Arr?) && Get(msg, "type") == Str("PING") ==> h.reply == Pong(now)
    ensures (msg.Obj? || msg.Arr?) && TypeOf(msg) == OtherMessage ==> h == Handled(NoReply, store, None, None)
  {
    if !(msg.Obj? || msg.Arr?) then Handled(NoReply, store, None, None)
    else
      match TypeOf(msg)
      case CheckUrlMessage => HandleCheckUrl(msg, store, env, now)
      case CheckHashMessage => HandleCheckHash(msg, store, env, now)
      case GetLastResultMessage => Handled(LastResult(GetLastResult(store)), store, None, None)
      case PingMessage => Handled(Pong(now), store, None, None)
      case OtherMessage => Handled(NoReply, store, None, None)
  }

  /** The message types the handler answers. */
  datatype MessageType = CheckUrlMessage | CheckHashMessage | GetLastResultMessage | PingMessage | OtherMessage

  /** The four message names are different strings. Their lengths differ, which spares the
      prover a character-by-character comparison. */
  lemma MessageNamesDistinct()
    ensures "CHECK_URL" != "CHECK_HASH" && "CHECK_URL" != "GET_LAST_RESULT" && "CHECK_URL" != "PING"
    ensures "CHECK_HASH" != "GET_LAST_RESULT" && "CHECK_HASH" != "PING" && "GET_LAST_RESULT" != "PING"
  {
    assert |"CHECK_URL"| == 9 && |"CHECK_HASH"| == 10 && |"GET_LAST_RESULT"| == 15 && |"PING"| == 4;
  }

  /** The two menu item ids are different strings; as above, their lengths tell them apart. */
  lemma MenuIdsDistinct()
    ensures MenuCheckSelection != MenuCheckLink
  {
    assert |MenuCheckSelection| != |MenuCheckLink|;
  }

  /** Which branch `msg.type` selects; the four names are told apart once, here. */
  function TypeOf(msg: Value): (t: MessageType)
    ensures t == CheckUrlMessage <==> Get(msg, "type") == Str("CHECK_URL")
    ensures t == CheckHashMessage <==> Get(msg, "type") == Str("CHECK_HASH")
    ensures t == GetLastResultMessage <==> Get(msg, "type") == Str("GET_LAST_RESULT")
    ensures t == PingMessage <==> Get(msg, "type") == Str("PING")
  {
    var kind := Get(msg, "type");
    MessageNamesDistinct();
    if kind == Str("CHECK_URL") then CheckUrlMessage
    else if kind == Str("CHECK_HASH") then CheckHashMessage
    else if kind == Str("GET_LAST_RESULT") then GetLastResultMessage
    else if kind == Str("PING") then PingMessage
    else OtherMessage
  }

  /** A malformed subject is refused before any lookup: the fixed error reply, no request, no
      store write. */
  lemma InvalidSubjectIsRejectedFirst(msg: Value, store: Store, env: Env, now: string)
    requires msg.Obj?
    requires || (Get(msg, "type") == Str("CHECK_URL") && !IsProbablyUrl(MessageUrl(msg), env.protocolOf))
             || (Get(msg, "type") == Str("CHECK_HASH") && !IsProbablyHash(MessageHash(msg)))
    ensures OnMessage(msg, store, env, now).sent.None?
    ensures OnMessage(msg, store, env, now).store == store
    ensures OnMessage(msg, store, env, now).reply
            == Failed(if Get(msg, "type") == Str("CHECK_URL") then InvalidUrlMessage else InvalidHashMessage)
  {
  }

  /** A lookup that fails (missing key, HTTP error, transport error) is answered with the
      uniform error object carrying the thrown message, and nothing is stored. */
  lemma LookupFailureIsWrapped(msg: Value, store: Store, env: Env, now: string, e: ApiError)
    requires msg.Obj? && Get(msg, "type") == Str("CHECK_HASH") && IsProbablyHash(MessageHash(msg))
    requires CheckHash(MessageHash(msg), GetSettings(store).apiKey, env.fetch, env.parseJson, env.encode).result
             == Failure(e)
    ensures ReplyToJs(OnMessage(msg, store, env, now).reply) == ErrorObject(ThrownText(e))
    ensures OnMessage(msg, store, env, now).store == store
  {
    HashMessagesGoToHashCheck(msg, store, env, now);
    var fetched := CheckHash(MessageHash(msg), GetSettings(store).apiKey, env.fetch, env.parseJson, env.encode);
    var h := HandleCheckHash(msg, store, env, now);
    assert h == FinishMessageCheck(fetched, store, now);
    FailedCheckIsWrapped(fetched, store, now, e);
  }

  /** A failed lookup ends in the error reply carrying the thrown text, with the store kept. */
  lemma FailedCheckIsWrapped(fetched: Fetched<CheckResult>, store: Store, now: string, e: ApiError)
    requires fetched.result == Failure(e)
    ensures ReplyToJs(FinishMessageCheck(fetched, store, now).reply) == ErrorObject(ThrownText(e))
    ensures FinishMessageCheck(fetched, store, now).store == store
  {
    assert FinishMessageCheck(fetched, store, now).reply == Failed(ThrownText(e));
  }

  lemma HashMessagesGoToHashCheck(msg: Value, store: Store, env: Env, now: string)
    requires msg.Obj? && Get(msg, "type") == Str("CHECK_HASH")
    ensures OnMessage(msg, store, env, now) == HandleCheckHash(msg, store, env, now)
  {
  }

  /** After a successful check the last-result slot reads back as the returned result plus the
      timestamp, and the settings are unchanged. */
  lemma {:induction false} StoredResultIsStamped(msg: Value, store: Store, env: Env, now: string)
    requires OnMessage(msg, store, env, now).reply.Checked?
    ensures var h := OnMessage(msg, store, env, now);
            && ResultFromJs(GetLastResult(h.store)) == Some(h.reply.result.(ts := Some(now)))
            && h.reply.result.ts.None?
            && GetSettings(h.store) == GetSettings(store)
  {
    var h := OnMessage(msg, store, env, now);
    assert h.store == SetLastResult(store, Stamp(h.reply.result, now));
  }

  /** A context-menu click: the link target is looked up as given (normalised but not
      validated); selected text is normalised and must pass the URL check first. */
  datatype MenuClick = MenuClick(menuItemId: string, linkUrl: Value, selectionText: Value)

  /** The end of a menu-triggered check: every outcome is notified, a success with the verdict
      message and a failure with the error title and the thrown text. */
  function FinishMenuCheck(fetched: Fetched<CheckResult>, store: Store, now: string): (h: Handled)
    ensures h.reply.NoReply? && h.sent == fetched.sent && h.notice.Some?
    ensures h.store != store ==> h.notice.value.title == NotifyTitle
    ensures fetched.result.Success? ==> h.notice == Some(Notice(NotifyTitle, FormatVerdictMessage(fetched.result.value)))
    ensures fetched.result.Failure? ==> h.notice == Some(Notice(ErrorTitle, ThrownText(fetched.result.error)))
    ensures Lookup(h.sent, h.store) == Recorded(fetched, store, now)
  {
    match fetched.result
    case Failure(e) => Handled(NoReply, store, fetched.sent, Some(Notice(ErrorTitle, ThrownText(e))))
    case Success(c) =>
      var saved := SaveAndNotify(store, c, now, true);
      Handled(NoReply, saved.store, fetched.sent, saved.notice)
  }

  /** The context-menu handler. Every lookup it issues ends in a notification (the verdict, or
      the error); the store changes only by recording a result, and then the notification is
      the verdict message; selected text is looked up only when it passes the URL check. */
  function OnMenuClick(info: MenuClick, store: Store, env: Env, now: string): (h: Handled)
    ensures h.reply.NoReply?
    ensures h.sent.Some? ==> h.notice.Some?
    ensures h.store != store ==> h.notice.Some? && h.notice.value.title == NotifyTitle
    ensures h.sent.Some? && info.menuItemId != MenuCheckLink ==>
              IsProbablyUrl(NormalizeUrl(Trim(ToStr(info.selectionText))), env.protocolOf)
    ensures !(info.menuItemId == MenuCheckLink && Truthy(info.linkUrl))
            && !(info.menuItemId == MenuCheckSelection && Truthy(info.selectionText))
            ==> h == Handled(NoReply, store, None, None)
    ensures info.menuItemId == MenuCheckLink && Truthy(info.linkUrl) ==> h == HandleLinkClick(info.linkUrl, store, env, now)
    ensures info.menuItemId == MenuCheckLink && Truthy(info.linkUrl) ==>
              Lookup(h.sent, h.store)
              == Recorded(CheckUrl(NormalizeUrl(ToStr(info.linkUrl)), GetSettings(store).apiKey, env.fetch,
                                   env.parseJson, env.encode), store, now)
  {
    if info.menuItemId == MenuCheckLink && Truthy(info.linkUrl) then
      HandleLinkClick(info.linkUrl, store, env, now)
    else if info.menuItemId == MenuCheckSelection && Truthy(info.selectionText) then
      HandleSelectionClick(info.selectionText, store, env, now)
    else Handled(NoReply, store, None, None)
  }

  /** "Check link": the normalised link target is looked up without the URL check. */
  function HandleLinkClick(linkUrl: Value, store: Store, env: Env, now: string): (h: Handled)
    ensures h.reply.NoReply? && h.notice.Some?
    ensures h.store != store ==> h.notice.value.title == NotifyTitle
    ensures h == FinishMenuCheck(CheckUrl(NormalizeUrl(ToStr(linkUrl)), GetSettings(store).apiKey, env.fetch,
                                          env.parseJson, env.encode), store, now)
    ensures Lookup(h.sent, h.store)
            == Recorded(CheckUrl(NormalizeUrl(ToStr(linkUrl)), GetSettings(store).apiKey, env.fetch, env.parseJson,
                                 env.encode), store, now)
  {
    var url := NormalizeUrl(ToStr(linkUrl));
    FinishMenuCheck(CheckUrl(url, GetSettings(store).apiKey, env.fetch, env.parseJson, env.encode), store, now)
  }

  /** "Check selection": the trimmed, normalised text is looked up only if it passes the URL
      check; otherwise the user is told it does not look like a URL. */
  function HandleSelectionClick(selectionText: Value, store: Store, env: Env, now: string): (h: Handled)
    ensures h.reply.NoReply? && h.notice.Some?
    ensures h.store != store ==> h.notice.value.title == NotifyTitle
    ensures h.sent.Some? ==> IsProbablyUrl(NormalizeUrl(Trim(ToStr(selectionText))), env.protocolOf)
    ensures !IsProbablyUrl(NormalizeUrl(Trim(ToStr(selectionText))), env.protocolOf) ==>
              h == Handled(NoReply, store, None, Some(Notice(NotifyTitle, SelectionNotUrlMessage)))
    ensures IsProbablyUrl(NormalizeUrl(Trim(ToStr(selectionText))), env.protocolOf) ==>
              h == FinishMenuCheck(CheckUrl(NormalizeUrl(Trim(ToStr(selectionText))), GetSettings(store).apiKey,
                                            env.fetch, env.parseJson, env.encode), store, now)
  {
    var url := NormalizeUrl(Trim(ToStr(selectionText)));
    if !IsProbablyUrl(url, env.protocolOf) then
      Handled(NoReply, store, None, Some(Notice(NotifyTitle, SelectionNotUrlMessage)))
    else
      FinishMenuCheck(CheckUrl(url, GetSettings(store).apiKey, env.fetch, env.parseJson, env.encode), store, now)
  }

  /** What checking `url` does to the outside world: nothing when the URL check refuses it,
      otherwise the lookup request and, on success, the stamped result recorded. */
  function UrlLookup(url: string, store: Store, env: Env, now: string): (l: Lookup)
    ensures !IsProbablyUrl(url, env.protocolOf) ==> l == Lookup(None, store)
    ensures l.sent.Some? ==> l.sent.value.url == Base + "/search/url?request=" + env.encode(url)
  {
    if !IsProbablyUrl(url, env.protocolOf) then Lookup(None, store)
    else Recorded(CheckUrl(url, GetSettings(store).apiKey, env.fetch, env.parseJson, env.encode), store, now)
  }

  lemma UrlMessagesGoToUrlCheck(msg: Value, store: Store, env: Env, now: string)
    requires msg.Obj? && Get(msg, "type") == Str("CHECK_URL")
    ensures OnMessage(msg, store, env, now) == HandleCheckUrl(msg, store, env, now)
  {
  }

  /** A CHECK_URL message carrying `text` has the effect of checking its normalised form. */
  lemma UrlMessageLookup(text: string, store: Store, env: Env, now: string)
    ensures var h := OnMessage(Obj(map["type" := Str("CHECK_URL"), "url" := Str(text)]), store, env, now);
            Lookup(h.sent, h.store) == UrlLookup(NormalizeUrl(text), store, env, now)
  {
    var msg := Obj(map["type" := Str("CHECK_URL"), "url" := Str(text)]);
    UrlMessageCarriesText(text);
    var url := NormalizeUrl(text);
    UrlMessagesGoToUrlCheck(msg, store, env, now);
    var h := HandleCheckUrl(msg, store, env, now);
    if IsProbablyUrl(url, env.protocolOf) {
      var fetched := CheckUrl(url, GetSettings(store).apiKey, env.fetch, env.parseJson, env.encode);
      assert h == FinishMessageCheck(fetched, store, now);
      assert UrlLookup(url, store, env, now) == Recorded(fetched, store, now);
    } else {
      assert h == Handled(Failed(InvalidUrlMessage), store, None, None);
      assert UrlLookup(url, store, env, now) == Lookup(None, store);
    }
  }

  /** The CHECK_URL message the popup sends for `text` asks about the normalised text. */
  lemma UrlMessageCarriesText(text: string)
    ensures var msg := Obj(map["type" := Str("CHECK_URL"), "url" := Str(text)]);
            Get(msg, "type") == Str("CHECK_URL") && MessageUrl(msg) == NormalizeUrl(text)
  {
    var msg := Obj(map["type" := Str("CHECK_URL"), "url" := Str(text)]);
    assert Get(msg, "url") == Str(text);
    assert TextOr(Str(text)) == text;
  }

  /** A selection click on `text` has the effect of checking its normalised form. */
  lemma SelectionClickLookup(text: string, store: Store, env: Env, now: string)
    ensures var h := OnMenuClick(MenuClick(MenuCheckSelection, Undefined, Str(text)), store, env, now);
            Lookup(h.sent, h.store) == UrlLookup(NormalizeUrl(text), store, env, now)
  {
    var info := MenuClick(MenuCheckSelection, Undefined, Str(text));
    if text == "" {
      MenuIdsDistinct();
      assert OnMenuClick(info, store, env, now) == Handled(NoReply, store, None, None);
      assert NormalizeUrl(text) == "";
    } else {
      assert Truthy(info.selectionText);
      SelectedTextLookup(info, store, env, now);
      assert ToStr(info.selectionText) == text;
      NormalizeIgnoresSurroundingSpace(text);
    }
  }

  /** A click on the selection item with some text checks the trimmed, normalised text. */
  lemma SelectedTextLookup(info: MenuClick, store: Store, env: Env, now: string)
    requires info.menuItemId == MenuCheckSelection && Truthy(info.selectionText)
    ensures var h := OnMenuClick(info, store, env, now);
            Lookup(h.sent, h.store) == UrlLookup(NormalizeUrl(Trim(ToStr(info.selectionText))), store, env, now)
  {
    SelectionClicksGoToSelectionCheck(info, store, env, now);
    var url := NormalizeUrl(Trim(ToStr(info.selectionText)));
    var h := HandleSelectionClick(info.selectionText, store, env, now);
    if IsProbablyUrl(url, env.protocolOf) {
      var fetched := CheckUrl(url, GetSettings(store).apiKey, env.fetch, env.parseJson, env.encode);
      assert h == FinishMenuCheck(fetched, store, now);
      assert UrlLookup(url, store, env, now) == Recorded(fetched, store, now);
    }
  }

  lemma SelectionClicksGoToSelectionCheck(info: MenuClick, store: Store, env: Env, now: string)
    requires info.menuItemId == MenuCheckSelection && Truthy(info.selectionText)
    ensures OnMenuClick(info, store, env, now) == HandleSelectionClick(info.selectionText, store, env, now)
  {
    MenuIdsDistinct();
    assert info.menuItemId != MenuCheckLink;
  }

  /** Checking selected text from the context menu and checking the same text from the popup
      issue the same lookup and leave the same store; only the notification differs. */
  lemma SelectionAgreesWithPopup(text: string, store: Store, env: Env, now: string)
    ensures var menu := OnMenuClick(MenuClick(MenuCheckSelection, Undefined, Str(text)), store, env, now);
            var popup := OnMessage(Obj(map["type" := Str("CHECK_URL"), "url" := Str(text)]), store, env, now);
            menu.sent == popup.sent && menu.store == popup.store
  {
    SelectionClickLookup(text, store, env, now);
    UrlMessageLookup(text, store, env, now);
  }

  /** Unlike selected text, a link target is not put through the URL check: with a key set the
      normalised link is always looked up at the url endpoint, whatever it is. */
  lemma LinkIsLookedUpUnvalidated(info: MenuClick, store: Store, env: Env, now: string)
    requires info.menuItemId == MenuCheckLink && Truthy(info.linkUrl)
    requires GetSettings(store).apiKey != ""
    ensures var h := OnMenuClick(info, store, env, now);
            && h.sent.Some?
            && h.sent.value.url == Base + "/search/url?request=" + env.encode(NormalizeUrl(ToStr(info.linkUrl)))
            && h.notice.Some?
  {
    var url := NormalizeUrl(ToStr(info.linkUrl));
    var fetched := CheckUrl(url, GetSettings(store).apiKey, env.fetch, env.parseJson, env.encode);
    assert Recorded(fetched, store, now).sent == fetched.sent;
  }

  /** A link lookup that fails is reported in the error notification carrying the thrown text,
      and nothing is stored. */
  lemma LinkFailureIsNotified(info: MenuClick, store: Store, env: Env, now: string, e: ApiError)
    requires info.menuItemId == MenuCheckLink && Truthy(info.linkUrl)
    requires CheckUrl(NormalizeUrl(ToStr(info.linkUrl)), GetSettings(store).apiKey, env.fetch, env.parseJson,
                      env.encode).result == Failure(e)
    ensures OnMenuClick(info, store, env, now).notice == Some(Notice(ErrorTitle, ThrownText(e)))
    ensures OnMenuClick(info, store, env, now).store == store
  {
    var fetched := CheckUrl(NormalizeUrl(ToStr(info.linkUrl)), GetSettings(store).apiKey, env.fetch, env.parseJson,
                            env.encode);
    assert OnMenuClick(info, store, env, now) == FinishMenuCheck(fetched, store, now);
  }

  /** Without a key, a link click sends nothing and raises the missing-key error notification. */
  lemma LinkWithoutKeyIsRefused(info: MenuClick, store: Store, env: Env, now: string)
    requires info.menuItemId == MenuCheckLink && Truthy(info.linkUrl)
    requires GetSettings(store).apiKey == ""
    ensures OnMenuClick(info, store, env, now).sent.None?
    ensures OnMenuClick(info, store, env, now).notice == Some(Notice(ErrorTitle, MissingKeyMessage))
  {
    var fetched := CheckUrl(NormalizeUrl(ToStr(info.linkUrl)), GetSettings(store).apiKey, env.fetch, env.parseJson,
                            env.encode);
    assert fetched.result == Failure(MissingApiKey);
    LinkFailureIsNotified(info, store, env, now, MissingApiKey);
  }
}

=== FILE: filecheck.dfy ===
/** The file-check page's pure rules: hex encoding of a digest, the size guard before hashing,
    the CSS class and kind label chosen when a result is rendered, and the hash check the page
    sends to the background script. SHA-256 itself is a parameter. */
module FileCheck {
  import opened Wrappers
  import opened Js
  import opened Utils
  import opened Api
  import opened Storage
  import opened Background

  type byte = x: int | 0 <= x < 256

  /** A SHA-256 digest: 32 bytes. */
  type Digest = s: seq<byte> | |s| == 32 witness seq(32, _ => 0)

  /** The largest file hashed in the browser: 200 MiB. */
  const MaxFileSize := 200 * 1024 * 1024

  /** A file chosen on the page; its size is the length of its contents. */
  datatype File = File(name: string, content: seq<byte>)

  datatype FileError = TooLarge(size: nat)

  // ---------------------------------------------------------------------------------------
  // arrayBufferToHex
  // ---------------------------------------------------------------------------------------

  function HexDigit(d: nat): char
    requires d < 16
  {
    "0123456789abcdef"[d]
  }

  /** `n.toString(16)`: lower-case digits, no leading zeros. */
  function NatToHex(n: nat): string {
    if n < 16 then [HexDigit(n)] else NatToHex(n / 16) + [HexDigit(n % 16)]
  }

  /** `s.padStart(width, fill)` for a single fill character. */
  function PadStart(s: string, width: nat, fill: char): string
    decreases width - |s|
  {
    if |s| >= width then s else PadStart([fill] + s, width, fill)
  }

  /** `b.toString(16).padStart(2, "0")`: always the byte's high and low hex digit. */
  function ByteToHex(b: byte): (r: string)
    ensures r == [HexDigit(b / 16), HexDigit(b % 16)]
  {
    if b < 16 then
      assert NatToHex(b) == [HexDigit(b)];
      assert PadStart(NatToHex(b), 2, '0') == PadStart(['0', HexDigit(b)], 2, '0');
      PadStart(NatToHex(b), 2, '0')
    else
      assert NatToHex(b / 16) == [HexDigit(b / 16)];
      PadStart(NatToHex(b), 2, '0')
  }

  /** The hex text of a byte sequence, two lower-case digits per byte in order. */
  function HexEncode(bytes: seq<byte>): (hex: string)
    ensures |hex| == 2 * |bytes|
    ensures forall i :: 0 <= i < |hex| ==> IsLowerHexDigit(hex[i])
  {
    if |bytes| == 0 then ""
    else
      var rest := HexEncode(bytes[1..]);
      var head := ByteToHex(bytes[0]);
      assert IsLowerHexDigit(head[0]) && IsLowerHexDigit(head[1]);
      head + rest
  }

  /** Byte `j` is written as digits `2j` and `2j + 1`, high nibble first. */
  lemma {:induction false} HexEncodeAt(bytes: seq<byte>, j: nat)
    requires j < |bytes|
    ensures HexEncode(bytes)[2 * j] == HexDigit(bytes[j] / 16)
    ensures HexEncode(bytes)[2 * j + 1] == HexDigit(bytes[j] % 16)
  {
    if j > 0 {
      HexEncodeAt(bytes[1..], j - 1);
      assert HexEncode(bytes) == ByteToHex(bytes[0]) + HexEncode(bytes[1..]);
    }
  }

  /** Appending a byte appends its two digits. */
  lemma {:induction false} HexEncodeAppend(bytes: seq<byte>, b: byte)
    ensures HexEncode(bytes + [b]) == HexEncode(bytes) + ByteToHex(b)
  {
    if |bytes| > 0 {
      assert (bytes + [b])[1..] == bytes[1..] + [b];
      HexEncodeAppend(bytes[1..], b);
    } else {
      assert bytes + [b] == [b];
    }
  }

  /** `arrayBufferToHex`: the loop appends each byte's two digits in turn. */
  method ArrayBufferToHex(bytes: seq<byte>) returns (hex: string)
    ensures hex == HexEncode(bytes)
    ensures |hex| == 2 * |bytes|
    ensures HexDecode(hex) == Some(bytes)
  {
    hex := "";
    var i := 0;
    while i < |bytes|
      invariant 0 <= i <= |bytes|
      invariant hex == HexEncode(bytes[..i])
    {
      HexEncodeAppend(bytes[..i], bytes[i]);
      assert bytes[..i + 1] == bytes[..i] + [bytes[i]];
      hex := hex + ByteToHex(bytes[i]);
      i := i + 1;
    }
    assert bytes[..i] == bytes;
    HexRoundTrip(bytes);
  }

  /** The value of a hex digit of either case. */
  function HexValue(c: char): Option<nat> {
    if '0' <= c <= '9' then Some(c as int - '0' as int)
    else if 'a' <= c <= 'f' then Some(c as int - 'a' as int + 10)
    else if 'A' <= c <= 'F' then Some(c as int - 'A' as int + 10)
    else None
  }

  /** Reads hex text back as bytes, two digits per byte; None for odd length or a non-digit. */
  function HexDecode(hex: string): Option<seq<byte>> {
    if |hex| == 0 then Some([])
    else if |hex| == 1 then None
    else
      match (HexValue(hex[0]), HexValue(hex[1]), HexDecode(hex[2..]))
      case (Some(hi), Some(lo), Some(rest)) => Some([(hi * 16 + lo) as byte] + rest)
      case _ => None
  }

  lemma HexDigitValue(d: nat)
    requires d < 16
    ensures HexValue(HexDigit(d)) == Some(d)
  {
  }

  /** Decoding a byte's two digits in front of any text. */
  lemma HexDecodeByte(b: byte, rest: string)
    ensures HexDecode(ByteToHex(b) + rest)
            == if HexDecode(rest).Some? then Some([b] + HexDecode(rest).value) else None
  {
    var s := ByteToHex(b) + rest;
    var hi, lo := b / 16, b % 16;
    assert s[0] == HexDigit(hi) && s[1] == HexDigit(lo) && s[2..] == rest;
    HexDigitValue(hi);
    HexDigitValue(lo);
    assert (hi * 16 + lo) as byte == b;
  }

  /** Decoding the encoding gives back the bytes. */
  lemma {:induction false} HexRoundTrip(bytes: seq<byte>)
    ensures HexDecode(HexEncode(bytes)) == Some(bytes)
  {
    if |bytes| > 0 {
      HexRoundTrip(bytes[1..]);
      HexDecodeByte(bytes[0], HexEncode(bytes[1..]));
      assert [bytes[0]] + bytes[1..] == bytes;
    }
  }

  /** Different byte sequences have different hex texts. */
  lemma HexEncodeInjective(a: seq<byte>, b: seq<byte>)
    requires HexEncode(a) == HexEncode(b)
    ensures a == b
  {
    HexRoundTrip(a);
    HexRoundTrip(b);
  }

  /** Two lower-case hex digits read as one byte are that byte's two digits. */
  lemma DigitPair(c0: char, c1: char)
    requires IsLowerHexDigit(c0) && IsLowerHexDigit(c1)
    ensures HexValue(c0).Some? && HexValue(c1).Some?
    ensures HexValue(c0).value * 16 + HexValue(c1).value < 256
    ensures ByteToHex((HexValue(c0).value * 16 + HexValue(c1).value) as byte) == [c0, c1]
  {
    var hi := HexValue(c0).value;
    var lo := HexValue(c1).value;
    var b := hi * 16 + lo;
    assert b / 16 == hi && b % 16 == lo;
  }

  /** Lower-case hex text of even length decodes, and encoding the bytes gives the text back. */
  lemma {:induction false} HexDecodeEncode(hex: string)
    requires |hex| % 2 == 0
    requires forall i :: 0 <= i < |hex| ==> IsLowerHexDigit(hex[i])
    ensures HexDecode(hex).Some?
    ensures HexEncode(HexDecode(hex).value) == hex
  {
    if |hex| > 0 {
      HexDecodeEncode(hex[2..]);
      DigitPair(hex[0], hex[1]);
      var rest := HexDecode(hex[2..]).value;
      var b := (HexValue(hex[0]).value * 16 + HexValue(hex[1]).value) as byte;
      assert HexDecode(hex) == Some([b] + rest);
      assert ([b] + rest)[1..] == rest;
      assert hex == [hex[0], hex[1]] + hex[2..];
    }
  }

  /** The digest sizes the hash validator stands for: MD5, SHA-1 and SHA-256. */
  predicate IsDigestSize(n: int) {
    n == 16 || n == 20 || n == 32
  }

  /** Trimmed lower-case text passes the hash validator exactly when it is the hex of an MD5,
      SHA-1 or SHA-256 digest. */
  lemma LowerHashIsDigestHex(hex: string)
    requires IsTrimmed(hex)
    requires forall i :: 0 <= i < |hex| ==> !('A' <= hex[i] <= 'Z')
    ensures IsProbablyHash(hex) <==> exists bytes: seq<byte> :: IsDigestSize(|bytes|) && HexEncode(bytes) == hex
  {
    if IsProbablyHash(hex) {
      AcceptedTrimmedHash(hex);
      UpperFreeHexIsLower(hex);
      LowerHexDigestDecodes(hex);
      var bytes := HexDecode(hex).value;
      assert IsDigestSize(|bytes|) && HexEncode(bytes) == hex;
    }
    if exists bytes: seq<byte> :: IsDigestSize(|bytes|) && HexEncode(bytes) == hex {
      var bytes: seq<byte> :| IsDigestSize(|bytes|) && HexEncode(bytes) == hex;
      DigestSizedHexIsProbablyHash(bytes);
    }
  }

  /** Lower-case hex of a digest's length decodes to digest-sized bytes that encode back to it. */
  lemma LowerHexDigestDecodes(hex: string)
    requires IsDigestLength(|hex|)
    requires forall i :: 0 <= i < |hex| ==> IsLowerHexDigit(hex[i])
    ensures HexDecode(hex).Some?
    ensures IsDigestSize(|HexDecode(hex).value|) && HexEncode(HexDecode(hex).value) == hex
  {
    HexDecodeEncode(hex);
    var bytes := HexDecode(hex).value;
    assert |hex| == 2 * |bytes|;
  }

  /** On trimmed text the validator's trim does nothing. */
  lemma AcceptedTrimmedHash(hex: string)
    requires IsTrimmed(hex)
    requires IsProbablyHash(hex)
    ensures IsDigestLength(|hex|) && |hex| % 2 == 0
    ensures forall i :: 0 <= i < |hex| ==> IsHexDigit(hex[i])
  {
    TrimmedIsFixed(hex);
  }

  /** Hex digits with no upper-case letter among them are lower-case hex digits. */
  lemma UpperFreeHexIsLower(hex: string)
    requires forall i :: 0 <= i < |hex| ==> !('A' <= hex[i] <= 'Z')
    requires forall i :: 0 <= i < |hex| ==> IsHexDigit(hex[i])
    ensures forall i :: 0 <= i < |hex| ==> IsLowerHexDigit(hex[i])
  {
  }

  /** The second direction: the hex of 16, 20 or 32 bytes passes the hash validator. */
  lemma DigestSizedHexIsProbablyHash(bytes: seq<byte>)
    requires IsDigestSize(|bytes|)
    ensures IsProbablyHash(HexEncode(bytes))
  {
    var hex := HexEncode(bytes);
    assert IsLowerHexDigit(hex[0]) && IsLowerHexDigit(hex[|hex| - 1]);
    TrimmedIsFixed(hex);
    assert IsDigestLength(|Trim(hex)|);
    assert forall i :: 0 <= i < |hex| ==> IsHexDigit(hex[i]);
  }

  /** A SHA-256 digest in hex is a 64-digit string that the hash validator accepts. */
  lemma DigestHexIsProbablyHash(d: Digest)
    ensures |HexEncode(d)| == 64
    ensures IsProbablyHash(HexEncode(d))
  {
    DigestSizedHexIsProbablyHash(d);
  }

  // ---------------------------------------------------------------------------------------
  // sha256File
  // ---------------------------------------------------------------------------------------

  /** `sha256File`: a file larger than 200 MiB is refused before it is read; otherwise the hex
      of its digest, which is 64 digits, passes the hash check and decodes to the digest. */
  function Sha256File(file: File, sha256: seq<byte> -> Digest): (r: Result<string, FileError>)
    ensures r.Success? <==> |file.content| <= MaxFileSize
    ensures r.Failure? ==> r.error == TooLarge(|file.content|)
    ensures r.Success? ==> r.value == HexEncode(sha256(file.content))
    ensures r.Success? ==> && |r.value| == 64
                           && IsProbablyHash(r.value)
                           && HexDecode(r.value) == Some(sha256(file.content))
  {
    if |file.content| > MaxFileSize then Failure(TooLarge(|file.content|))
    else
      var digest := sha256(file.content);
      DigestHexIsProbablyHash(digest);
      HexRoundTrip(digest);
      Success(HexEncode(digest))
  }

  // ---------------------------------------------------------------------------------------
  // renderResult
  // ---------------------------------------------------------------------------------------

  /** The class the result box gets: none for no result, "unk" for an error, otherwise "ok" for a
      safe verdict, "bad" for a dangerous one and "unk" for anything else. */
  function VerdictClass(result: Value): (cls: Option<string>)
    ensures cls.None? <==> !Truthy(result)
    ensures cls.Some? ==> cls.value == "ok" || cls.value == "bad" || cls.value == "unk"
    ensures Truthy(result) && Truthy(Get(result, "error")) ==> cls == Some("unk")
    ensures cls == Some("ok") ==> Get(result, "verdict") == Str("safe")
    ensures cls == Some("bad") ==> Get(result, "verdict") == Str("dangerous")
    ensures Truthy(result) && !Truthy(Get(result, "error")) ==>
              (cls == Some("ok") <==> Get(result, "verdict") == Str("safe"))
    ensures Truthy(result) && !Truthy(Get(result, "error")) ==>
              (cls == Some("bad") <==> Get(result, "verdict") == Str("dangerous"))
  {
    if !Truthy(result) then None
    else if Truthy(Get(result, "error")) then Some("unk")
    else
      var verdict := Get(result, "verdict");
      if verdict == Str("safe") then Some("ok")
      else if verdict == Str("dangerous") then Some("bad")
      else Some("unk")
  }

  /** The class a verdict is shown with. */
  function ClassOfVerdict(v: Verdict): string {
    match v
    case Safe => "ok"
    case Dangerous => "bad"
    case Unknown => "unk"
  }

  /** A check result renders with the class of its verdict; every error reply renders "unk"; a
      missing reply renders no class. */
  lemma RenderedClassFollowsVerdict(c: CheckResult, message: string)
    ensures VerdictClass(ReplyToJs(Checked(c))) == Some(ClassOfVerdict(c.verdict))
    ensures VerdictClass(ReplyToJs(Failed(message))) == Some("unk")
    ensures VerdictClass(ReplyToJs(NoReply)).None?
  {
    var v := ResultToJs(c);
    assert Get(v, "error") == Undefined;
    assert Get(v, "verdict") == Str(VerdictName(c.verdict));
  }

  /** The heading of a rendered result: HASH, DOMAIN or URL for those types, otherwise the
      type's own text, or "RESULT" when it has none. */
  function KindLabel(result: Value): (heading: string)
    ensures Get(result, "type") == Str("hash") ==> heading == "HASH"
    ensures Get(result, "type") == Str("domain") ==> heading == "DOMAIN"
    ensures Get(result, "type") == Str("url") ==> heading == "URL"
    ensures !Truthy(Get(result, "type")) ==> heading == "RESULT"
    ensures Truthy(Get(result, "type")) && Get(result, "type") !in {Str("hash"), Str("domain"), Str("url")}
            ==> heading == ToStr(Get(result, "type"))
  {
    var kind := Get(result, "type");
    if kind == Str("hash") then "HASH"
    else if kind == Str("domain") then "DOMAIN"
    else if kind == Str("url") then "URL"
    else ToStr(if Truthy(kind) then kind else Str("RESULT"))
  }

  /** A url or hash result is headed on the page by the same word that opens its notification. */
  lemma HeadingMatchesNotification(c: CheckResult)
    requires c.kind == "url" || c.kind == "hash"
    ensures StartsWith(FormatVerdictMessage(c), KindLabel(ResultToJs(c)) + ": ")
    ensures KindLabel(ResultToJs(c)) == (if c.kind == "url" then "URL" else "HASH")
  {
    assert Get(ResultToJs(c), "type") == Str(c.kind);
  }

  // ---------------------------------------------------------------------------------------
  // The page's hash check
  // ---------------------------------------------------------------------------------------

  /** The message the page sends for a hashed file. */
  function HashCheckMessage(hex: string, file: File): Value {
    Obj(map["type" := Str("CHECK_HASH"), "hash" := Str(hex),
            "meta" := Obj(map["origin" := Str("file"), "fileName" := Str(file.name),
                              "fileSize" := Num(|file.content|)])])
  }

  /** A CHECK_HASH message whose hash is already trimmed and valid is looked up as it is, with
      the stored key; a successful reply is a hash result about that text. */
  lemma ValidHashMessageIsLookedUp(msg: Value, hex: string, store: Store, env: Env, now: string)
    requires msg.Obj? && Get(msg, "type") == Str("CHECK_HASH") && MessageHash(msg) == hex
    requires IsProbablyHash(hex)
    requires GetSettings(store).apiKey != ""
    ensures var h := OnMessage(msg, store, env, now);
            && h.sent.Some?
            && h.sent.value.url == Base + "/search/hash?request=" + env.encode(hex)
            && ("x-api-key", GetSettings(store).apiKey) in h.sent.value.headers
            && (h.reply.Checked? ==> h.reply.result.kind == "hash" && h.reply.result.input == hex)
  {
    HashMessagesGoToHashCheck(msg, store, env, now);
    var fetched := CheckHash(hex, GetSettings(store).apiKey, env.fetch, env.parseJson, env.encode);
    var h := HandleCheckHash(msg, store, env, now);
    assert h == FinishMessageCheck(fetched, store, now);
  }

  /** The page's message carries the hash unchanged when it is already trimmed. */
  lemma HashCheckMessageCarriesHash(hex: string, file: File)
    requires IsTrimmed(hex)
    ensures HashCheckMessage(hex, file).Obj?
    ensures Get(HashCheckMessage(hex, file), "type") == Str("CHECK_HASH")
    ensures MessageHash(HashCheckMessage(hex, file)) == hex
  {
    var msg := HashCheckMessage(hex, file);
    assert Get(msg, "hash") == Str(hex);
    assert TextOr(Str(hex)) == hex;
    TrimmedIsFixed(hex);
    assert MessageHash(msg) == Trim(hex);
  }

  /** A file within the limit always passes the background's hash validation: with a key set the
      digest's hex is looked up at the hash endpoint, and a successful reply is about that hex. */
  lemma HashedFileReachesLookup(file: File, sha256: seq<byte> -> Digest, store: Store, env: Env, now: string)
    requires |file.content| <= MaxFileSize
    requires GetSettings(store).apiKey != ""
    ensures var hex := Sha256File(file, sha256).value;
            var h := OnMessage(HashCheckMessage(hex, file), store, env, now);
            && h.sent.Some?
            && h.sent.value.url == Base + "/search/hash?request=" + env.encode(hex)
            && ("x-api-key", GetSettings(store).apiKey) in h.sent.value.headers
            && (h.reply.Checked? ==> h.reply.result.kind == "hash" && h.reply.result.input == hex)
  {
    var hex := Sha256File(file, sha256).value;
    assert hex == HexEncode(sha256(file.content));
    assert !IsWhitespace(hex[0]) && !IsWhitespace(hex[|hex| - 1]);
    HashCheckMessageCarriesHash(hex, file);
    ValidHashMessageIsLookedUp(HashCheckMessage(hex, file), hex, store, env, now);
  }
}

=== FILE: js.dfy ===
/** JavaScript values and the few built-in operations on them that the extension relies on:
    truthiness, optional property access, `String(v)`, `trim()` and `toLowerCase()`. */
module Js {

  /** A JavaScript value as it appears in a parsed response body, in extension storage or in a
      runtime message. `Undefined` stands for a missing property. Numbers are integers here. */
  datatype Value =
    | Undefined
    | Null
    | Bool(b: bool)
    | Num(n: int)
    | Str(s: string)
    | Arr(items: seq<Value>)
    | Obj(fields: map<string, Value>)

  /** `v == null`: the values that `??` and `?.` skip. */
  predicate Nullish(v: Value) {
    v.Undefined? || v.Null?
  }

  /** JavaScript truthiness, `!!v`. */
  predicate Truthy(v: Value) {
    match v
    case Undefined => false
    case Null => false
    case Bool(b) => b
    case Num(n) => n != 0
    case Str(s) => s != ""
    case Arr(_) => true
    case Obj(_) => true
  }

  /** Optional property access `v?.key`. Only own properties of objects are visible; none of the
      keys the extension reads is a built-in property of strings, arrays or plain objects. */
  function Get(v: Value, key: string): Value {
    if v.Obj? && key in v.fields then v.fields[key] else Undefined
  }

  /** A chain of optional accesses `v?.k1?.k2...`. */
  function GetPath(v: Value, keys: seq<string>): Value
    decreases |keys|
  {
    if |keys| == 0 then v else GetPath(Get(v, keys[0]), keys[1..])
  }

  /** `String(v)`. Arrays print as their elements joined by commas, nullish elements as "".
      Every object prints as a plain object does; an object whose own `toString` or `valueOf`
      changes that (or makes `String` throw) is outside this model. */
  function ToStr(v: Value): string {
    match v
    case Undefined => "undefined"
    case Null => "null"
    case Bool(b) => if b then "true" else "false"
    case Num(n) => IntToDecimal(n)
    case Str(s) => s
    case Arr(items) =>
      Join(seq(|items|, i requires 0 <= i < |items| =>
             if Nullish(items[i]) then "" else ToStr(items[i])), ",")
    case Obj(_) => "[object Object]"
  }

  /** `String(v || "")`: the text of a truthy value, "" otherwise. */
  function TextOr(v: Value): string {
    if Truthy(v) then ToStr(v) else ""
  }

  function Join(parts: seq<string>, sep: string): string {
    if |parts| == 0 then ""
    else if |parts| == 1 then parts[0]
    else parts[0] + sep + Join(parts[1..], sep)
  }

  function DecimalDigit(d: nat): char
    requires d < 10
  {
    ('0' as int + d) as char
  }

  /** The value of a decimal digit; 0 for any other character. */
  function DigitValue(c: char): nat {
    if '0' <= c <= '9' then c as int - '0' as int else 0
  }

  /** Reads a string of decimal digits, most significant first. */
  function DecimalValue(s: string): nat {
    if s == [] then 0 else DecimalValue(s[..|s| - 1]) * 10 + DigitValue(s[|s| - 1])
  }

  /** `String(n)` for a non-negative integer: digits only, with no leading zero, reading back
      as `n`. */
  function NatToDecimal(n: nat): (r: string)
    ensures r != ""
    ensures forall i :: 0 <= i < |r| ==> '0' <= r[i] <= '9'
    ensures |r| > 1 ==> r[0] != '0'
    ensures DecimalValue(r) == n
  {
    if n < 10 then
      var r := [DecimalDigit(n)];
      assert r[..0] == [];
      r
    else
      var r := NatToDecimal(n / 10) + [DecimalDigit(n % 10)];
      assert r[..|r| - 1] == NatToDecimal(n / 10);
      r
  }

  /** `d` is the decimal numeral of `m`: digits only, no leading zero, reading back as `m`. */
  predicate IsDecimalOf(d: string, m: nat) {
    && d != ""
    && (forall i :: 0 <= i < |d| ==> '0' <= d[i] <= '9')
    && (|d| > 1 ==> d[0] != '0')
    && DecimalValue(d) == m
  }

  /** `String(n)` for an integer: a minus sign exactly for a negative number, then the digits of
      its magnitude. */
  function IntToDecimal(n: int): (r: string)
    ensures r != ""
    ensures (r[0] == '-') <==> n < 0
    ensures n >= 0 ==> DecimalValue(r) == n
    ensures n < 0 ==> |r| > 1 && DecimalValue(r[1..]) == -n
    ensures n >= 0 ==> IsDecimalOf(r, n)
    ensures n < 0 ==> IsDecimalOf(r[1..], -n)
  {
    if n < 0 then
      var r := "-" + NatToDecimal(-n);
      assert r[1..] == NatToDecimal(-n);
      r
    else NatToDecimal(n)
  }

  /** The text of a truthy value is never empty, except for an array, whose text may be. */
  lemma TruthyTextIsNonEmpty(v: Value)
    ensures Truthy(v) && !v.Arr? ==> ToStr(v) != ""
  {
  }

  /** The characters `String.prototype.trim` removes, restricted to a fixed set. */
  predicate IsWhitespace(c: char) {
    c == ' ' || c == '\t' || c == '\n' || c == '\r' || c == '\U{B}' || c == '\U{C}'
    || c == '\U{A0}' || c == '\U{2028}' || c == '\U{2029}' || c == '\U{FEFF}'
  }

  /** No leading or trailing whitespace. */
  predicate IsTrimmed(s: string) {
    s == [] || (!IsWhitespace(s[0]) && !IsWhitespace(s[|s| - 1]))
  }

  /** Every character is whitespace (vacuously so for ""). */
  predicate AllWhitespace(s: string) {
    forall i :: 0 <= i < |s| ==> IsWhitespace(s[i])
  }

  /** `r` is `s` with a whitespace-only prefix and a whitespace-only suffix cut off. */
  ghost predicate IsStrippedFrom(s: string, r: string) {
    exists i :: 0 <= i <= |s| - |r| && r == s[i..i + |r|] && AllWhitespace(s[..i]) && AllWhitespace(s[i + |r|..])
  }

  function TrimStart(s: string): (r: string)
    ensures |r| <= |s| && r == s[|s| - |r|..]
    ensures r == [] || !IsWhitespace(r[0])
    ensures forall i :: 0 <= i < |s| - |r| ==> IsWhitespace(s[i])
  {
    if |s| > 0 && IsWhitespace(s[0]) then TrimStart(s[1..]) else s
  }

  function TrimEnd(s: string): (r: string)
    ensures |r| <= |s| && r == s[..|r|]
    ensures r == [] || !IsWhitespace(r[|r| - 1])
    ensures forall i :: |r| <= i < |s| ==> IsWhitespace(s[i])
  {
    if |s| > 0 && IsWhitespace(s[|s| - 1]) then TrimEnd(s[..|s| - 1]) else s
  }

  /** `s.trim()`: the result has no surrounding whitespace, and is empty exactly when `s` is all
      whitespace. */
  function Trim(s: string): (r: string)
    ensures IsTrimmed(r)
    ensures r == [] <==> AllWhitespace(s)
    ensures IsStrippedFrom(s, r)
  {
    var t := TrimStart(s);
    var r := TrimEnd(t);
    TrimEndsStrip(s);
    assert r == [] ==> AllWhitespace(s) by {
      if r == [] {
        assert t == [];
      }
    }
    r
  }

  /** Trimming both ends cuts off only a whitespace prefix and a whitespace suffix. */
  lemma TrimEndsStrip(s: string)
    ensures IsStrippedFrom(s, TrimEnd(TrimStart(s)))
  {
    var t := TrimStart(s);
    var r := TrimEnd(t);
    var i := |s| - |t|;
    LeadingWhitespaceCut(s);
    TrailingWhitespaceCut(t);
    assert s[i..i + |r|] == t[..|r|] == r;
    assert s[i + |r|..] == t[|r|..];
    assert 0 <= i <= |s| - |r| && r == s[i..i + |r|] && AllWhitespace(s[..i]) && AllWhitespace(s[i + |r|..]);
  }

  /** What `TrimStart` cuts off is all whitespace. */
  lemma LeadingWhitespaceCut(s: string)
    ensures AllWhitespace(s[..|s| - |TrimStart(s)|])
  {
    var head := s[..|s| - |TrimStart(s)|];
    forall k | 0 <= k < |head| ensures IsWhitespace(head[k]) {
      assert head[k] == s[k];
    }
  }

  /** What `TrimEnd` cuts off is all whitespace. */
  lemma TrailingWhitespaceCut(s: string)
    ensures AllWhitespace(s[|TrimEnd(s)|..])
  {
    var tail := s[|TrimEnd(s)|..];
    forall k | 0 <= k < |tail| ensures IsWhitespace(tail[k]) {
      assert tail[k] == s[|TrimEnd(s)| + k];
    }
  }

  /** Prefixing a non-empty trimmed string with text that starts with a non-space keeps it
      trimmed. */
  lemma PrefixedStaysTrimmed(p: string, s: string)
    requires p != [] && !IsWhitespace(p[0])
    requires s != [] && IsTrimmed(s)
    ensures IsTrimmed(p + s) && p + s != []
  {
    assert (p + s)[0] == p[0];
    assert (p + s)[|p + s| - 1] == s[|s| - 1];
  }

  /** Trimming a trimmed string changes nothing. */
  lemma TrimmedIsFixed(s: string)
    requires IsTrimmed(s)
    ensures Trim(s) == s
  {
  }

  /** `trim()` is idempotent. */
  lemma TrimIdempotent(s: string)
    ensures Trim(Trim(s)) == Trim(s)
  {
    TrimmedIsFixed(Trim(s));
  }

  function LowerChar(c: char): char {
    if 'A' <= c <= 'Z' then (c as int + 32) as char else c
  }

  /** `toLowerCase()` on the ASCII letters, the only characters whose case the extension's
      comparisons can observe. */
  function AsciiLower(s: string): (r: string)
    ensures |r| == |s|
    ensures forall i :: 0 <= i < |s| ==> r[i] == LowerChar(s[i])
  {
    seq(|s|, i requires 0 <= i < |s| => LowerChar(s[i]))
  }

  predicate StartsWith(s: string, prefix: string) {
    |prefix| <= |s| && s[..|prefix|] == prefix
  }

  predicate EndsWith(s: string, suffix: string) {
    |suffix| <= |s| && s[|s| - |suffix|..] == suffix
  }
}

=== FILE: storage.dfy ===
/** Settings and the last check result over the extension's key-value store. The store is a
    map from keys to stored JavaScript values; every operation maps a store to a new store. */
module Storage {
  import opened Wrappers
  import opened Js
  import opened Api

  /** The extension's local key-value store. */
  type Store = map<string, Value>

  const ApiKeyKey := "apiKey"
  const LanguageKey := "language"
  const ThemeKey := "theme"
  const LastResultKey := "lastResult"

  predicate IsSettingsKey(k: string) {
    k == ApiKeyKey || k == LanguageKey || k == ThemeKey
  }

  datatype Settings = Settings(apiKey: string, language: string, theme: string)

  /** `DEFAULT_SETTINGS`. */
  const DefaultSettings := Settings("", "ru", "light")

  /** The fields a settings update may carry; an absent field is left as it is. */
  datatype SettingsPatch = SettingsPatch(apiKey: Option<string>, language: Option<string>, theme: Option<string>)

  /** One settings field: the stored value (the default when the key is absent), as text when
      it is truthy, the default otherwise. */
  function SettingOr(store: Store, key: string, default: string): string {
    var v := if key in store then store[key] else Str(default);
    if Truthy(v) then ToStr(v) else default
  }

  /** A stored string that is non-empty wins; an absent or falsy value gives the default; only a
      stored array (whose text may be empty) can make the field empty when its default is not. */
  ghost predicate FieldReads(store: Store, key: string, default: string, field: string) {
    && (key in store && Truthy(store[key]) ==> field == ToStr(store[key]))
    && (key in store && store[key].Str? && store[key].s != "" ==> field == store[key].s)
    && (!(key in store && Truthy(store[key])) ==> field == default)
    && (default != "" && !(key in store && store[key].Arr?) ==> field != "")
  }

  /** `getSettings`: each field is the stored value when truthy, its default otherwise; language
      and theme are never empty unless an array was stored under them. */
  function GetSettings(store: Store): (s: Settings)
    ensures FieldReads(store, ApiKeyKey, DefaultSettings.apiKey, s.apiKey)
    ensures FieldReads(store, LanguageKey, DefaultSettings.language, s.language)
    ensures FieldReads(store, ThemeKey, DefaultSettings.theme, s.theme)
  {
    Settings(SettingOr(store, ApiKeyKey, DefaultSettings.apiKey),
             SettingOr(store, LanguageKey, DefaultSettings.language),
             SettingOr(store, ThemeKey, DefaultSettings.theme))
  }

  /** The settings object as written to the store. */
  function SettingsEntries(s: Settings): Store {
    map[ApiKeyKey := Str(s.apiKey), LanguageKey := Str(s.language), ThemeKey := Str(s.theme)]
  }

  /** A store update that also returns the settings it wrote. */
  datatype SettingsWrite = SettingsWrite(store: Store, settings: Settings)

  /** `setSettings`: the current settings overridden field by field by the patch; that object is
      what is written and returned, and no other key of the store changes. */
  function SetSettings(store: Store, patch: SettingsPatch): (w: SettingsWrite)
    ensures w.settings.apiKey == patch.apiKey.GetOr(GetSettings(store).apiKey)
    ensures w.settings.language == patch.language.GetOr(GetSettings(store).language)
    ensures w.settings.theme == patch.theme.GetOr(GetSettings(store).theme)
    ensures ApiKeyKey in w.store && w.store[ApiKeyKey] == Str(w.settings.apiKey)
    ensures LanguageKey in w.store && w.store[LanguageKey] == Str(w.settings.language)
    ensures ThemeKey in w.store && w.store[ThemeKey] == Str(w.settings.theme)
    ensures forall k :: !IsSettingsKey(k) ==> (k in w.store <==> k in store)
    ensures forall k :: !IsSettingsKey(k) && k in store ==> w.store[k] == store[k]
  {
    var current := GetSettings(store);
    var next := Settings(patch.apiKey.GetOr(current.apiKey),
                         patch.language.GetOr(current.language),
                         patch.theme.GetOr(current.theme));
    SettingsWrite(store + SettingsEntries(next), next)
  }

  /** A text field read back: the default stands in for the empty string. */
  function OrDefault(value: string, default: string): string {
    if value != "" then value else default
  }

  /** Reading the settings after `setSettings` gives the object it returned, with empty fields
      replaced by their defaults. */
  lemma SetSettingsThenGet(store: Store, patch: SettingsPatch)
    ensures var w := SetSettings(store, patch);
            GetSettings(w.store) == Settings(OrDefault(w.settings.apiKey, DefaultSettings.apiKey),
                                             OrDefault(w.settings.language, DefaultSettings.language),
                                             OrDefault(w.settings.theme, DefaultSettings.theme))
  {
  }

  /** `clearApiKey`: the key becomes empty; language, theme and every other key are unchanged. */
  function ClearApiKey(store: Store): (r: Store)
    ensures GetSettings(r).apiKey == ""
    ensures GetSettings(r).language == GetSettings(store).language
    ensures GetSettings(r).theme == GetSettings(store).theme
    ensures ApiKeyKey in r
    ensures forall k :: k != ApiKeyKey ==> (k in r <==> k in store)
    ensures forall k :: k != ApiKeyKey && k in store ==> r[k] == store[k]
  {
    store[ApiKeyKey := Str("")]
  }

  /** `getLastResult`: the stored value, or null when nothing (or null) is stored. */
  function GetLastResult(store: Store): (v: Value)
    ensures !v.Undefined?
    ensures LastResultKey !in store ==> v == Null
    ensures v == Null <==> (LastResultKey !in store || Nullish(store[LastResultKey]))
    ensures LastResultKey in store && !Nullish(store[LastResultKey]) ==> v == store[LastResultKey]
  {
    var v := if LastResultKey in store then store[LastResultKey] else Null;
    if Nullish(v) then Null else v
  }

  /** `setLastResult`: the slot afterwards holds the result, read back unchanged; the settings
      and every other key are untouched. */
  function SetLastResult(store: Store, c: CheckResult): (r: Store)
    ensures GetLastResult(r) == ResultToJs(c)
    ensures ResultFromJs(GetLastResult(r)) == Some(c)
    ensures GetSettings(r) == GetSettings(store)
    ensures forall k :: k != LastResultKey ==> (k in r <==> k in store)
    ensures forall k :: k != LastResultKey && k in store ==> r[k] == store[k]
  {
    ResultJsRoundTrip(c);
    store[LastResultKey := ResultToJs(c)]
  }

  /** Neither settings update touches the last-result slot. */
  lemma SettingsUpdatesKeepLastResult(store: Store, patch: SettingsPatch)
    ensures GetLastResult(SetSettings(store, patch).store) == GetLastResult(store)
    ensures GetLastResult(ClearApiKey(store)) == GetLastResult(store)
  {
    var w := SetSettings(store, patch);
    assert LastResultKey in w.store <==> LastResultKey in store;
  }
}

=== FILE: utils.dfy ===
/** Input helpers and the response classifier: URL normalisation, the URL and hash validators,
    and the mapping of a lookup response to a three-way verdict. */
module Utils {
  import opened Wrappers
  import opened Js

  // ---------------------------------------------------------------------------------------
  // Bare domains: the pattern /^[a-z0-9.-]+\.[a-z]{2,}$/i
  // ---------------------------------------------------------------------------------------

  predicate IsAsciiLetter(c: char) {
    'a' <= c <= 'z' || 'A' <= c <= 'Z'
  }

  predicate IsDomainChar(c: char) {
    IsAsciiLetter(c) || '0' <= c <= '9' || c == '.' || c == '-'
  }

  predicate AllDomainChars(s: string) {
    forall i :: 0 <= i < |s| ==> IsDomainChar(s[i])
  }

  predicate AllLetters(s: string) {
    forall i :: 0 <= i < |s| ==> IsAsciiLetter(s[i])
  }

  /** The regular expression read literally: some split of `s` into a non-empty run of domain
      characters, a dot, and two or more letters. */
  ghost predicate MatchesDomainPattern(s: string) {
    exists k :: 1 <= k && k + 3 <= |s| && s[k] == '.' && AllDomainChars(s[..k]) && AllLetters(s[k + 1..])
  }

  /** The number of letters at the end of `s`. */
  function TrailingLetters(s: string): (n: nat)
    ensures n <= |s|
    ensures AllLetters(s[|s| - n..])
    ensures n < |s| ==> !IsAsciiLetter(s[|s| - n - 1])
  {
    if |s| > 0 && IsAsciiLetter(s[|s| - 1]) then
      var init := s[..|s| - 1];
      var m := TrailingLetters(init);
      LetterRunExtends(s, m);
      m + 1
    else 0
  }

  /** A letter run at the end of all but the last character, followed by a final letter, is a
      letter run at the end of the whole string, bounded by the same non-letter. */
  lemma LetterRunExtends(s: string, m: nat)
    requires |s| > 0 && IsAsciiLetter(s[|s| - 1])
    requires m <= |s| - 1
    requires AllLetters(s[..|s| - 1][|s| - 1 - m..])
    requires m < |s| - 1 ==> !IsAsciiLetter(s[..|s| - 1][|s| - 1 - m - 1])
    ensures AllLetters(s[|s| - (m + 1)..])
    ensures m + 1 < |s| ==> !IsAsciiLetter(s[|s| - (m + 1) - 1])
  {
    var init := s[..|s| - 1];
    var tail := s[|s| - (m + 1)..];
    forall i | 0 <= i < |tail| ensures IsAsciiLetter(tail[i]) {
      if i < m {
        assert tail[i] == init[|s| - 1 - m..][i];
      }
    }
    if m + 1 < |s| {
      assert s[|s| - (m + 1) - 1] == init[|s| - 1 - m - 1];
    }
  }

  /** A one-pass decision of the bare-domain pattern: the trailing letter run is the final label. */
  predicate IsBareDomain(s: string) {
    var n := TrailingLetters(s);
    AllDomainChars(s) && 2 <= n && n + 2 <= |s| && s[|s| - n - 1] == '.'
  }

  /** The one-pass decision agrees with the regular expression on every string. */
  lemma BareDomainMatchesPattern(s: string)
    ensures IsBareDomain(s) <==> MatchesDomainPattern(s)
  {
    var n := TrailingLetters(s);
    if IsBareDomain(s) {
      var k := |s| - n - 1;
      assert s[k + 1..] == s[|s| - n..];
      assert 1 <= k && k + 3 <= |s| && s[k] == '.' && AllDomainChars(s[..k]) && AllLetters(s[k + 1..]);
    }
    if MatchesDomainPattern(s) {
      var k :| 1 <= k && k + 3 <= |s| && s[k] == '.' && AllDomainChars(s[..k]) && AllLetters(s[k + 1..]);
      forall i | 0 <= i < |s| ensures IsDomainChar(s[i]) {
        if i < k {
          assert s[i] == s[..k][i];
        } else if i > k {
          assert s[i] == s[k + 1..][i - k - 1];
        }
      }
    }
  }

  /** A string starting with "//" is never a bare domain: '/' is not a domain character. */
  lemma SlashSlashIsNotBareDomain(s: string)
    requires StartsWith(s, "//")
    ensures !MatchesDomainPattern(s)
  {
    BareDomainMatchesPattern(s);
    assert s[0] == '/';
  }

  /** The one-pass form of the fact above, for callers that branch on `IsBareDomain`. */
  lemma BareDomainIsNotProtocolRelative(s: string)
    ensures IsBareDomain(s) ==> !StartsWith(s, "//")
  {
    if IsBareDomain(s) && |s| >= 2 {
      assert IsDomainChar(s[0]);
      assert s[..2][0] == s[0];
    }
  }

  // ---------------------------------------------------------------------------------------
  // normalizeUrl / isProbablyUrl
  // ---------------------------------------------------------------------------------------

  /** `normalizeUrl`: a bare domain gains "https://", a protocol-relative "//host" gains
      "https:", anything else is only trimmed. */
  function NormalizeUrl(input: string): (r: string)
    ensures r == "" <==> Trim(input) == ""
    ensures IsTrimmed(r)
    ensures MatchesDomainPattern(Trim(input)) ==> r == "https://" + Trim(input)
    ensures StartsWith(Trim(input), "//") ==> r == "https:" + Trim(input)
    ensures !MatchesDomainPattern(Trim(input)) && !StartsWith(Trim(input), "//") ==> r == Trim(input)
  {
    if input == "" then ""
    else
      var s := Trim(input);
      BareDomainMatchesPattern(s);
      BareDomainIsNotProtocolRelative(s);
      if IsBareDomain(s) then
        PrefixedStaysTrimmed("https://", s);
        "https://" + s
      else if StartsWith(s, "//") then
        PrefixedStaysTrimmed("https:", s);
        "https:" + s
      else s
  }

  /** Once a scheme is prefixed the result contains ':' and starts with 'h', so it is neither
      a bare domain nor protocol-relative. */
  lemma SchemePrefixedIsStable(p: string, t: string)
    requires p == "https://" || p == "https:"
    requires t != [] && IsTrimmed(t)
    ensures NormalizeUrl(p + t) == p + t
  {
    var u := p + t;
    assert u[0] == p[0] == 'h' && u[5] == p[5] == ':';
    PrefixedStaysTrimmed(p, t);
    TrimmedIsFixed(u);
    assert !AllDomainChars(u) by { assert !IsDomainChar(u[5]); }
    BareDomainMatchesPattern(u);
    assert !StartsWith(u, "//") by { assert u[..2][0] == u[0]; }
  }

  /** `normalizeUrl` is idempotent, which lets `isProbablyUrl` re-normalise its input. */
  lemma {:induction false} NormalizeUrlIdempotent(input: string)
    ensures NormalizeUrl(NormalizeUrl(input)) == NormalizeUrl(input)
  {
    var t := Trim(input);
    var r := NormalizeUrl(input);
    if t == "" {
      assert r == "";
    } else if MatchesDomainPattern(t) {
      SchemePrefixedIsStable("https://", t);
    } else if StartsWith(t, "//") {
      SchemePrefixedIsStable("https:", t);
    } else {
      assert r == t;
      TrimmedIsFixed(t);
    }
  }

  /** Surrounding whitespace never changes the normalised form. */
  lemma NormalizeIgnoresSurroundingSpace(input: string)
    ensures NormalizeUrl(Trim(input)) == NormalizeUrl(input)
  {
    TrimIdempotent(input);
  }

  /** The schemes `isProbablyUrl` accepts, as reported by the URL parser's `protocol`. */
  predicate IsWebProtocol(protocol: Option<string>) {
    protocol == Some("http:") || protocol == Some("https:")
  }

  /** `isProbablyUrl`: the trimmed input is non-empty and its normalised form parses with an
      http or https scheme. `protocolOf` stands for the WHATWG URL parser (None when it throws). */
  function IsProbablyUrl(input: string, protocolOf: string -> Option<string>): (r: bool)
    ensures r <==> Trim(input) != "" && IsWebProtocol(protocolOf(NormalizeUrl(input)))
  {
    var s := Trim(input);
    if s == "" then false
    else
      NormalizeIgnoresSurroundingSpace(input);
      IsWebProtocol(protocolOf(NormalizeUrl(s)))
  }

  /** Validating an already normalised URL parses exactly the string that will be looked up. */
  lemma ValidationSeesNormalizedUrl(input: string, protocolOf: string -> Option<string>)
    ensures IsProbablyUrl(NormalizeUrl(input), protocolOf)
        <==> NormalizeUrl(input) != "" && IsWebProtocol(protocolOf(NormalizeUrl(input)))
  {
    NormalizeUrlIdempotent(input);
    TrimmedIsFixed(NormalizeUrl(input));
  }

  // ---------------------------------------------------------------------------------------
  // isProbablyHash
  // ---------------------------------------------------------------------------------------

  predicate IsLowerHexDigit(c: char) {
    '0' <= c <= '9' || 'a' <= c <= 'f'
  }

  predicate IsHexDigit(c: char) {
    IsLowerHexDigit(c) || 'A' <= c <= 'F'
  }

  /** The digest lengths accepted: MD5, SHA-1 and SHA-256 in hex. */
  predicate IsDigestLength(n: int) {
    n == 32 || n == 40 || n == 64
  }

  /** `isProbablyHash`: after trimming, a hex digest of 32, 40 or 64 digits in either case
      (the input is lower-cased before the lower-case pattern is applied). */
  function IsProbablyHash(input: string): (r: bool)
    ensures r <==> IsDigestLength(|Trim(input)|)
                   && forall i :: 0 <= i < |Trim(input)| ==> IsHexDigit(Trim(input)[i])
  {
    var t := Trim(input);
    var s := AsciiLower(t);
    LowerCasedHex(t);
    IsDigestLength(|s|) && forall i :: 0 <= i < |s| ==> IsLowerHexDigit(s[i])
  }

  /** Lower-casing turns exactly the hex digits of either case into lower-case hex digits. */
  lemma LowerCasedHex(t: string)
    ensures (forall i :: 0 <= i < |t| ==> IsHexDigit(t[i]))
            <==> (forall i :: 0 <= i < |AsciiLower(t)| ==> IsLowerHexDigit(AsciiLower(t)[i]))
  {
    forall i | 0 <= i < |t| ensures IsLowerHexDigit(AsciiLower(t)[i]) <==> IsHexDigit(t[i]) {
      assert AsciiLower(t)[i] == LowerChar(t[i]);
    }
  }

  // ---------------------------------------------------------------------------------------
  // classifyOpentip
  // ---------------------------------------------------------------------------------------

  datatype Verdict = Safe | Dangerous | Unknown

  /** The wire name of a verdict. */
  function VerdictName(v: Verdict): string {
    match v
    case Safe => "safe"
    case Dangerous => "dangerous"
    case Unknown => "unknown"
  }

  /** The classifier's answer: verdict, human-readable label and normalised zone. */
  datatype Classification = Classification(verdict: Verdict, labelText: string, zone: Value)

  const LabelDangerous := "Опасно"
  const LabelSafe := "Безопасно"
  const LabelSuspicious := "Подозрительно/неоднозначно"
  const LabelUnknown := "Неизвестно"

  /** Where the zone may sit in a response, in the order they are tried. There is no
      "Data.zone" path. */
  const ZonePaths: seq<seq<string>> :=
    [["Zone"], ["zone"], ["Data", "Zone"], ["data", "Zone"], ["data", "zone"]]

  /** The first non-nullish value found along `paths`, or null when there is none. */
  function FirstDefined(data: Value, paths: seq<seq<string>>): (r: Value)
    ensures !r.Undefined?
    ensures r.Null? ==> forall i :: 0 <= i < |paths| ==> Nullish(GetPath(data, paths[i]))
    ensures !r.Null? ==> (exists i :: 0 <= i < |paths| && GetPath(data, paths[i]) == r
                           && forall j :: 0 <= j < i ==> Nullish(GetPath(data, paths[j])))
  {
    if |paths| == 0 then Null
    else
      var v := GetPath(data, paths[0]);
      if !Nullish(v) then v
      else
        var r := FirstDefined(data, paths[1..]);
        assert forall i :: 1 <= i < |paths| ==> paths[i] == paths[1..][i - 1];
        if !r.Null? then
          var i :| 0 <= i < |paths[1..]| && GetPath(data, paths[1..][i]) == r
                   && forall j :: 0 <= j < i ==> Nullish(GetPath(data, paths[1..][j]));
          assert forall j :: 0 <= j < i + 1 ==> Nullish(GetPath(data, paths[j]));
          r
        else r
  }

  /** The zone a response carries: `Zone ?? zone ?? Data.Zone ?? data.Zone ?? data.zone ?? null`. */
  function FindZone(data: Value): (zone: Value)
    ensures !zone.Undefined?
    ensures !Nullish(Get(data, "Zone")) ==> zone == Get(data, "Zone")
    ensures Nullish(Get(data, "Zone")) && !Nullish(Get(data, "zone")) ==> zone == Get(data, "zone")
    ensures (Nullish(Get(data, "Zone")) && Nullish(Get(data, "zone"))
             && !Nullish(Get(Get(data, "Data"), "Zone")))
            ==> zone == Get(Get(data, "Data"), "Zone")
    ensures (Nullish(Get(data, "Zone")) && Nullish(Get(data, "zone"))
             && Nullish(Get(Get(data, "Data"), "Zone")) && !Nullish(Get(Get(data, "data"), "Zone")))
            ==> zone == Get(Get(data, "data"), "Zone")
    ensures (Nullish(Get(data, "Zone")) && Nullish(Get(data, "zone"))
             && Nullish(Get(Get(data, "Data"), "Zone")) && Nullish(Get(Get(data, "data"), "Zone")))
            ==> zone == (if Nullish(Get(Get(data, "data"), "zone")) then Null else Get(Get(data, "data"), "zone"))
  {
    var r := FirstDefined(data, ZonePaths);
    assert GetPath(data, ZonePaths[0]) == Get(data, "Zone");
    assert GetPath(data, ZonePaths[1]) == Get(data, "zone");
    assert GetPath(data, ZonePaths[2]) == Get(Get(data, "Data"), "Zone");
    assert GetPath(data, ZonePaths[3]) == Get(Get(data, "data"), "Zone");
    assert GetPath(data, ZonePaths[4]) == Get(Get(data, "data"), "zone");
    r
  }

  /** The lower-cased text the classifier compares: `zone ? String(zone).toLowerCase() : ""`. */
  function ZoneWord(zone: Value): string {
    if Truthy(zone) then AsciiLower(ToStr(zone)) else ""
  }

  /** The words the classifier recognises. */
  predicate IsZoneWord(w: string) {
    w == "red" || w == "green" || w == "yellow" || w == "grey" || w == "gray"
  }

  /** The words of the canonical zones the classifier produces. */
  lemma CanonicalZoneWords()
    ensures ZoneWord(Str("Red")) == "red" && ZoneWord(Str("Green")) == "green"
    ensures ZoneWord(Str("Yellow")) == "yellow" && ZoneWord(Str("Grey")) == "grey"
    ensures ZoneWord(Str("N/A")) == "n/a"
  {
    assert AsciiLower("Red") == "red";
    assert AsciiLower("Green") == "green";
    assert AsciiLower("Yellow") == "yellow";
    assert AsciiLower("Grey") == "grey";
    assert AsciiLower("N/A") == "n/a";
  }

  /** The verdict a normalised zone stands for. */
  function VerdictOfZone(zone: Value): Verdict {
    if zone == Str("Red") then Dangerous
    else if zone == Str("Green") then Safe
    else Unknown
  }

  /** The label paired with each verdict and normalised zone. */
  function LabelOf(verdict: Verdict, zone: Value): string {
    match verdict
    case Dangerous => LabelDangerous
    case Safe => LabelSafe
    case Unknown => if zone == Str("Yellow") then LabelSuspicious else LabelUnknown
  }

  /** `classifyOpentip`: recognised zone words (in any case) map to a fixed verdict and canonical
      zone; anything else is "unknown" with the raw zone kept, or "N/A" when none was found. */
  function ClassifyOpentip(data: Value): (c: Classification)
    ensures c.verdict == Dangerous <==> ZoneWord(FindZone(data)) == "red"
    ensures c.verdict == Safe <==> ZoneWord(FindZone(data)) == "green"
    ensures c.verdict == VerdictOfZone(c.zone)
    ensures c.labelText == LabelOf(c.verdict, c.zone)
    ensures !Nullish(c.zone)
    ensures ZoneWord(FindZone(data)) == "yellow" ==> c.zone == Str("Yellow")
    ensures ZoneWord(FindZone(data)) == "grey" || ZoneWord(FindZone(data)) == "gray" ==> c.zone == Str("Grey")
    ensures !IsZoneWord(ZoneWord(FindZone(data))) ==>
              c.zone == (if FindZone(data).Null? then Str("N/A") else FindZone(data))
  {
    var zone := FindZone(data);
    var word := ZoneWord(zone);
    if word == "red" then Classification(Dangerous, LabelDangerous, Str("Red"))
    else if word == "green" then Classification(Safe, LabelSafe, Str("Green"))
    else if word == "yellow" then Classification(Unknown, LabelSuspicious, Str("Yellow"))
    else if word == "grey" || word == "gray" then Classification(Unknown, LabelUnknown, Str("Grey"))
    else
      CanonicalZoneWords();
      Classification(Unknown, LabelUnknown, if Nullish(zone) then Str("N/A") else zone)
  }

  /** Classifying a response that carries only the normalised zone gives back the same
      classification: the normalised zone determines verdict, label and zone. */
  lemma {:induction false} ReclassifyIsStable(data: Value)
    ensures ClassifyOpentip(Obj(map["Zone" := ClassifyOpentip(data).zone])) == ClassifyOpentip(data)
  {
    var c := ClassifyOpentip(data);
    var d := Obj(map["Zone" := c.zone]);
    assert Get(d, "Zone") == c.zone;
    assert FindZone(d) == c.zone;
    CanonicalZoneWords();
    var word := ZoneWord(FindZone(data));
    if word == "red" {
      assert ZoneWord(c.zone) == "red";
    } else if word == "green" {
      assert ZoneWord(c.zone) == "green";
    } else if word == "yellow" {
      assert ZoneWord(c.zone) == "yellow";
    } else if word == "grey" || word == "gray" {
      assert ZoneWord(c.zone) == "grey";
    } else if FindZone(data).Null? {
      assert ZoneWord(c.zone) == "n/a";
    } else {
      assert c.zone == FindZone(data);
    }
  }

  /** The lookup is case-sensitive in its keys: a zone under "Data.zone" is not found. */
  lemma DataLowerZoneIsIgnored(z: Value)
    ensures ClassifyOpentip(Obj(map["Data" := Obj(map["zone" := z])]))
            == Classification(Unknown, LabelUnknown, Str("N/A"))
  {
    var d := Obj(map["Data" := Obj(map["zone" := z])]);
    assert FindZone(d) == Null;
  }
}

=== FILE: wrappers.dfy ===
/** Failure-compatible wrappers used across the model. */
module Wrappers {

  /** A value that may be absent. */
  datatype Option<+T> = None | Some(value: T) {

    /** The wrapped value, or `default` when there is none. */
    function GetOr(default: T): T {
      match this
      case Some(v) => v
      case None => default
    }
  }

  /** The outcome of an operation that can fail: an explicit replacement for a thrown error. */
  datatype Result<+T, +E> = Success(value: T) | Failure(error: E)
}
